=== FILE: README.md ===
# Team dashboard: a Dafny model of its stores, views and forms

The team dashboard is a React single-page application. Its state lives in
five zustand stores:

- tasks, team members and calendar events, each a list of records;
- chat, which holds channels, a map from channel id to messages, and an
  active channel id;
- auth, which holds a nullable current user.

The pages and components read these stores and derive views from them:

- the filtered and sorted task list;
- the chat transcript grouped by day and sender;
- the calendar entries and their colours;
- the dashboard's summaries.

They also validate and submit forms (task, team member, password, new
channel, login, profile) and make small state transitions (tag editing,
notification toggles, private-chat reuse).

This project models that logic as immutable datatypes and pure
state-to-state functions and proves what each operation promises. There is
one module per source file: `TaskStore`, `TeamStore`, `EventStore`,
`ChatStore`, `AuthStore`, `TasksPage`, `TaskFilters`, `TaskList`,
`TaskForm`, `TeamPage`, `TeamMemberForm`, `ChatPage`, `ChatArea`,
`ChannelList`, `NewChannelModal`, `CalendarPage`, `DashboardPage`,
`SecuritySettings`, `NotificationSettings`, `LoginForm` and
`ProfileSettings`. They share three modules:

- `Types`: the entities, enums and `Partial<T>` patches;
- `Seqs`: filter, count, subsequence and update-where;
- `Text`: JavaScript's `trim`, ASCII lower-casing and substring search.

Some conventions of the model:

- Timestamps are integers (milliseconds).
- Ids, the current time, the outcome of `window.confirm` and the day label
  of a timestamp are inputs. A handler reads the current time once, even
  where the source calls `new Date()` once per field.
- Each `setTimeout` completion is a separate step.
- A `Partial<T>` update is a patch datatype: one `Option` per field, merged
  by `ApplyTo`.

A reader might expect the chat transcript to show clusters of consecutive
messages from one sender. The code instead looks up an existing sender group
anywhere in the day. So A, A, B, A from the same day gives two groups,
[A: 1, 2, 4] and [B: 3], and `ChatArea.MergesNonConsecutiveRuns` proves
exactly that.

The task and member forms stay mounted while the page switches from editing
a record to adding one: "Add Task" and "Add Team Member" clear the edited
record but keep the form open. The form's effect then resets only the task's
due date, and nothing of the member. So the edited record's fields remain,
and a submit adds a copy of them under a new id. `TaskForm.Reload` and
`TeamMemberForm.Reload` model that effect, and the two `EditThenAddKeepsFields`
lemmas state the consequence.

## Model

| member | source | states |
|---|---|---|
| TaskStore.SetTasks | src/store/taskStore.ts:20 | the list is replaced wholesale; loading and error untouched |
| TaskStore.AddTask | src/store/taskStore.ts:21 | appends at the end: one longer, every earlier task in place, the new task last |
| TaskStore.UpdateTask | src/store/taskStore.ts:22-27 | length and order kept; every task with the id gets the patch merged; every other task is identical |
| TaskStore.DeleteTask | src/store/taskStore.ts:28-31 | no task with the id remains; every other task survives; the result is an order-preserving subsequence whose length is the number of tasks without the id, so it is exactly those tasks, duplicates included |
| TaskStore.SetLoading | src/store/taskStore.ts:32 | only the loading flag changes |
| TaskStore.SetError | src/store/taskStore.ts:33 | only the error changes |
| TaskStore.UpdateAbsentIsNoop | src/store/taskStore.ts:22-27 | updating an id no task carries leaves the state unchanged |
| TaskStore.DeleteAbsentIsNoop | src/store/taskStore.ts:28-31 | deleting an id no task carries leaves the state unchanged |
| TaskStore.DeleteUndoesAdd | src/store/taskStore.ts:21-31 | deleting the id of a freshly added task (whose id was absent) restores the state |
| TaskStore.AddKeepsDuplicates | src/store/taskStore.ts:21 | there is no id-collision check: adding a task whose id is present gives two tasks with that id |
| TeamStore.SetMembers | src/store/teamStore.ts:20 | the list is replaced wholesale |
| TeamStore.AddMember | src/store/teamStore.ts:21 | appends at the end, earlier members unchanged |
| TeamStore.UpdateMember | src/store/teamStore.ts:22-27 | merge into matching ids only, length and order kept |
| TeamStore.DeleteMember | src/store/teamStore.ts:28-31 | removes every matching member; the result is the order-preserving subsequence of exactly the other members, as many as there were |
| TeamStore.SetLoading | src/store/teamStore.ts:32 | only the loading flag changes |
| TeamStore.SetError | src/store/teamStore.ts:33 | only the error changes |
| TeamStore.UpdateAbsentIsNoop | src/store/teamStore.ts:22-27 | update of an absent id is a no-op |
| TeamStore.DeleteAbsentIsNoop | src/store/teamStore.ts:28-31 | delete of an absent id is a no-op |
| TeamStore.DeleteUndoesAdd | src/store/teamStore.ts:21-31 | deleting a freshly added member restores the state |
| TeamStore.AddKeepsDuplicates | src/store/teamStore.ts:21 | adding a member with a present id duplicates the id |
| EventStore.SetEvents | src/store/eventStore.ts:20 | the list is replaced wholesale |
| EventStore.AddEvent | src/store/eventStore.ts:21 | appends at the end, earlier events unchanged |
| EventStore.UpdateEvent | src/store/eventStore.ts:22-27 | merge into matching ids only, length and order kept |
| EventStore.DeleteEvent | src/store/eventStore.ts:28-31 | no event with the id remains; the result is the order-preserving subsequence of exactly the other events, as many as there were |
| EventStore.SetLoading | src/store/eventStore.ts:32 | only the loading flag changes |
| EventStore.SetError | src/store/eventStore.ts:33 | only the error changes |
| EventStore.UpdateAbsentIsNoop | src/store/eventStore.ts:22-27 | update of an absent id is a no-op |
| EventStore.DeleteAbsentIsNoop | src/store/eventStore.ts:28-31 | delete of an absent id is a no-op |
| EventStore.DeleteUndoesAdd | src/store/eventStore.ts:21-31 | deleting a freshly added event restores the state |
| EventStore.AddKeepsDuplicates | src/store/eventStore.ts:21 | adding an event with a present id duplicates the id |
| ChatStore.SetChannels | src/store/chatStore.ts:29 | the channel list is replaced; messages, active channel id and flags untouched |
| ChatStore.SetActiveChannelId | src/store/chatStore.ts:30 | only the active channel id changes |
| ChatStore.SetMessages | src/store/chatStore.ts:31-34 | exactly the entry for the channel is replaced; every other entry and field is untouched |
| ChatStore.AddMessage | src/store/chatStore.ts:35-41 | the channel's entry (empty if absent) gains the message at the end; other entries untouched |
| ChatStore.UpdateMessage | src/store/chatStore.ts:42-50 | within the channel's entry, matching message ids get the patch, others stay; other entries untouched; an absent entry becomes empty |
| ChatStore.DeleteMessage | src/store/chatStore.ts:51-59 | the channel's entry loses every message with the id and keeps exactly the others, as many as there were and in order; other entries and fields untouched |
| ChatStore.AddChannel | src/store/chatStore.ts:60-63 | the channel is appended; messages and active channel id untouched |
| ChatStore.UpdateChannel | src/store/chatStore.ts:64-69 | merge into matching channel ids only, length and order kept |
| ChatStore.DeleteChannel | src/store/chatStore.ts:70-75 | the channel leaves the list, which keeps exactly the other channels, as many as there were and in order; the active channel id becomes null if it was the deleted one; messages untouched |
| ChatStore.SetLoading | src/store/chatStore.ts:76 | only the loading flag changes |
| ChatStore.SetError | src/store/chatStore.ts:77 | only the error changes |
| ChatStore.AddTwiceAppendsInOrder | src/store/chatStore.ts:35-41 | two additions to an empty channel give [m1, m2]: append, no prepend, no re-sort |
| ChatStore.MissingChannelGetsEmptyEntry | src/store/chatStore.ts:42-59 | update and delete on a channel without an entry create an empty entry |
| ChatStore.DeleteUndoesAddMessage | src/store/chatStore.ts:35-59 | deleting a freshly added message (fresh id, entry present) restores the state |
| ChatStore.FreshAppendFilteredOut | src/store/chatStore.ts:55-57 | filtering out a fresh id appended to a list gives the list back |
| ChatStore.DeleteChannelOrphansMessages | src/store/chatStore.ts:70-75 | a deleted channel's messages stay in the map |
| AuthStore.InitialState | src/store/authStore.ts:16-18 | starts with no user, loading true, no error |
| AuthStore.SetUser | src/store/authStore.ts:19 | the user is replaced wholesale, flags untouched |
| AuthStore.SetLoading | src/store/authStore.ts:20 | only the loading flag changes |
| AuthStore.SetError | src/store/authStore.ts:21 | only the error changes |
| AuthStore.Logout | src/store/authStore.ts:22 | user and error cleared; loading kept |
| AuthStore.UpdateUser | src/store/authStore.ts:23-25 | a present user takes each supplied field and keeps each omitted one; no user stays no user |
| AuthStore.UpdateUserFullAndEmpty | src/store/authStore.ts:23-25 | a full patch installs exactly the patched user; an empty patch changes nothing |
| AuthStore.UpdateAfterLogout | src/store/authStore.ts:22-25 | after logout no update brings a user back |
| TaskFilters.SetSearch | src/components/tasks/TaskFilters.tsx:20-22 | only the search field changes |
| TaskFilters.SetStatus | src/components/tasks/TaskFilters.tsx:24-26 | only the status field changes |
| TaskFilters.SetPriority | src/components/tasks/TaskFilters.tsx:28-30 | only the priority field changes |
| TaskFilters.Reset | src/components/tasks/TaskFilters.tsx:32-38 | yields status 'all', priority 'all', search '' whatever the input |
| TaskFilters.ShowsResetIffNotReset | src/components/tasks/TaskFilters.tsx:115 | the reset button shows iff the filters differ from the reset value, and never right after a reset |
| TasksPage.Stage | src/pages/TasksPage.tsx:102-120 | an inactive stage is the identity; an active one is the order-preserving subsequence holding exactly the passing tasks, as many as pass |
| TasksPage.StageIsFilter | src/pages/TasksPage.tsx:102-120 | a stage equals one filter pass with "inactive, or passes" |
| TasksPage.FilterTasks | src/pages/TasksPage.tsx:99-120 | the three stages together equal one filter pass that keeps a task iff it matches the status unless 'all', the priority unless 'all', and, for a non-empty search, the lower-cased term occurs in the title, the description or any tag; so exactly the passing tasks, each as often as it occurs, in order |
| TasksPage.StagesAreOnePass | src/pages/TasksPage.tsx:99-120 | the status, priority and search stages run in sequence equal one filter pass keeping the tasks that pass all three |
| TasksPage.ResetFiltersKeepEverything | src/pages/TasksPage.tsx:102-112 | with reset filters nothing is filtered out |
| TasksPage.CompareOrder | src/pages/TasksPage.tsx:123-130 | the comparator is antisymmetric, puts a higher priority first, and returns 0 only for equal priority and equal due date |
| TasksPage.Insert | src/pages/TasksPage.tsx:123-130 | insertion adds exactly the one task (multiset) |
| TasksPage.InsertSorted | src/pages/TasksPage.tsx:123-130 | inserting into a list sorted by (priority rank, due date) keeps it sorted |
| TasksPage.InsertTies | src/pages/TasksPage.tsx:123-130 | insertion puts the task before the others sharing its sort key and leaves every other key's run alone |
| TasksPage.SortTasks | src/pages/TasksPage.tsx:123-130 | the result is a permutation of the input, sorted by urgent < high < medium < low then due date, and tasks with equal keys keep their input order (stable sort) |
| TasksPage.VisibleTasks | src/pages/TasksPage.tsx:98-133 | the listed tasks are a permutation of the single-pass filter result, sorted by the comparator |
| TasksPage.VisibleTasksCorrect | src/pages/TasksPage.tsx:98-133 | the listed tasks are a sorted, stable permutation of exactly the tasks that pass the filters: as many as pass, each as often as it passes, ties in store order |
| TasksPage.HandleAddTask | src/pages/TasksPage.tsx:135-145 | appends one task carrying the submitted fields, the fresh id and the current time as both stamps |
| TasksPage.HandleUpdateTask | src/pages/TasksPage.tsx:147-153 | every task with the edited id becomes the edited task restamped; all others unchanged |
| TasksPage.HandleStatusChange | src/pages/TasksPage.tsx:166-171 | only status and updatedAt of the target task change |
| TasksPage.HandleDeleteTask | src/pages/TasksPage.tsx:160-164 | unconfirmed, nothing changes; confirmed, the store's delete runs, so exactly the tasks with another id remain, in order |
| TaskList.StatusOptions | src/components/tasks/TaskList.tsx:66-69 | three statuses, never the current one, every other one, in the fixed order |
| TaskList.StatusOptionsFacts | src/components/tasks/TaskList.tsx:66-69 | the same facts, proved by counting |
| TaskList.CountOneMiss | src/components/tasks/TaskList.tsx:67-68 | a list with no repeats that contains x has exactly one element equal to x |
| TaskList.ToggleStatusMenu | src/components/tasks/TaskList.tsx:92-98 | the menu closes if open for that task, otherwise opens for it |
| TaskList.ToggleTwice | src/components/tasks/TaskList.tsx:92-98 | two clicks on the same task restore a closed menu or the menu open on that task; a menu open on another task ends closed |
| TaskList.HandleStatusChange | src/components/tasks/TaskList.tsx:117-121 | the status change reaches the store as the page's handler, and the menu closes |
| TaskList.ShowsOverdue | src/components/tasks/TaskList.tsx:86-90 | the marker shows iff the due time is past, on another day, and the task is not done |
| TaskList.OverdueMarkerCases | src/components/tasks/TaskList.tsx:174-179 | a task due on the current day never shows the marker, and a done task never does |
| TaskForm.Init | src/components/tasks/TaskForm.tsx:12-37 | on a fresh mount, editing loads the task's fields and formatted date; creating gives blank fields, todo, medium and tomorrow |
| TaskForm.Reload | src/components/tasks/TaskForm.tsx:22-37 | when the edited task changes on a mounted form, a task loads its fields; no task resets only the due date; tag input and errors are kept |
| TaskForm.InitIsFreshReload | src/components/tasks/TaskForm.tsx:12-37 | a fresh mount is the effect run once on the blank state |
| TaskForm.EditThenAddKeepsFields | src/components/tasks/TaskForm.tsx:22-37 | switching a mounted form from editing a task to adding keeps that task's title, description, status, priority and tags, and submitting creates a task carrying them |
| TaskForm.Errors | src/components/tasks/TaskForm.tsx:39-53 | an error per field iff the title or description trims empty or the date is empty, with the exact messages |
| TaskForm.Validate | src/components/tasks/TaskForm.tsx:39-56 | valid iff title and description are not blank and a date is set; the errors are recorded |
| TaskForm.AddTag | src/components/tasks/TaskForm.tsx:82-87 | the trimmed input is appended and the input cleared only if it is non-blank and new; otherwise nothing changes |
| TaskForm.RemoveTag | src/components/tasks/TaskForm.tsx:89-91 | every occurrence goes and exactly the other tags stay, as many as there were and in order; nothing else changes |
| TaskForm.AddTagKeepsTagsDistinct | src/components/tasks/TaskForm.tsx:83-84 | adding keeps the tag list free of repeats and every added tag trimmed and non-empty |
| TaskForm.RemoveUndoesAddTag | src/components/tasks/TaskForm.tsx:82-91 | removing a just-added tag restores the tag list |
| TaskForm.FormDraft | src/components/tasks/TaskForm.tsx:63-72 | the payload carries the form's fields, the parsed date and "user123" as assignee and creator |
| TaskForm.Submit | src/components/tasks/TaskForm.tsx:58-80 | submits iff valid; editing keeps id and createdAt and stamps updatedAt; creating carries none of them |
| TaskForm.EditUnchangedRoundTrip | src/components/tasks/TaskForm.tsx:23-80 | opening a valid task and saving it unchanged gives it back with only updatedAt changed, when its date round-trips and its people are "user123" |
| TeamMemberForm.Init | src/components/team/TeamMemberForm.tsx:12-31 | on a fresh mount, editing loads the member's fields; creating gives blank fields and role member |
| TeamMemberForm.Reload | src/components/team/TeamMemberForm.tsx:21-31 | when the edited member changes on a mounted form, a member loads its fields; no member changes nothing |
| TeamMemberForm.InitIsFreshReload | src/components/team/TeamMemberForm.tsx:12-31 | a fresh mount is the effect run once on the blank state |
| TeamMemberForm.EditThenAddKeepsFields | src/components/team/TeamMemberForm.tsx:21-31 | switching a mounted form from editing a member to adding keeps every field of that member, and submitting adds a member carrying them |
| TeamMemberForm.EmailPatternIffShape | src/components/team/TeamMemberForm.tsx:42 | the email pattern accepts exactly: no whitespace, one '@' not first, and a '.' after it that is neither first nor last of the domain |
| TeamMemberForm.AvatarUrl | src/components/team/TeamMemberForm.tsx:67 | the generated address is the fixed prefix, the encoded name and the fixed suffix, so the encoded name can be read back |
| TeamMemberForm.PaddedEmailRejected | src/components/team/TeamMemberForm.tsx:40-43 | a valid email with a leading or trailing space passes the required check but fails the pattern |
| TeamMemberForm.Errors | src/components/team/TeamMemberForm.tsx:33-53 | name, department and position errors iff blank; email "required" iff blank, else "invalid" iff the pattern fails |
| TeamMemberForm.Validate | src/components/team/TeamMemberForm.tsx:33-56 | valid iff name, department, position are not blank and the email matches the pattern |
| TeamMemberForm.FormDraft | src/components/team/TeamMemberForm.tsx:63-70 | the payload carries the fields; an empty photo is replaced by the generated avatar address, so the photo is never empty |
| TeamMemberForm.Submit | src/components/team/TeamMemberForm.tsx:58-78 | submits iff valid; editing keeps id and createdAt and stamps lastActive |
| TeamMemberForm.EditUnchangedRoundTrip | src/components/team/TeamMemberForm.tsx:21-78 | saving a valid member unchanged restamps lastActive and fills an empty photo, nothing else |
| TeamPage.FilterMembers | src/pages/TeamPage.tsx:72-86 | an empty search returns the list; otherwise exactly the members the lower-cased term hits in name, email, department or position, as many as hit and in order |
| TeamPage.EmptySearchHitsAll | src/pages/TeamPage.tsx:73-74 | the empty term is found in every member |
| TeamPage.HandleAddMember | src/pages/TeamPage.tsx:88-98 | appends the member with a fresh id and the current time as createdAt and lastActive; the form closes |
| TeamPage.HandleUpdateMember | src/pages/TeamPage.tsx:100-107 | the edited member, restamped, replaces every member with its id; the form closes |
| TeamPage.HandleDeleteMember | src/pages/TeamPage.tsx:114-118 | unconfirmed, nothing changes; confirmed, the store's delete runs, so exactly the members with another id remain, in order |
| ChatArea.FindDate | src/components/chat/ChatArea.tsx:39 | the index of the first date group with the label, or -1 if there is none |
| ChatArea.FindSender | src/components/chat/ChatArea.tsx:46 | the index of the first sender group with the user id, or -1 if there is none |
| ChatArea.UserName | src/components/chat/ChatArea.tsx:49-56 | user123 is "John Doe (You)", user456 "Jane Smith", user789 "Michael Johnson"; every other id shows "Unknown User" |
| ChatArea.PlaceDescribes | src/components/chat/ChatArea.tsx:26-63 | one reduce step turns a grouping of a prefix into the grouping of the prefix plus the message |
| ChatArea.PlaceInDateOk | src/components/chat/ChatArea.tsx:46-62 | the step inside a date group appends to the sender's group or opens one at the end |
| ChatArea.GroupMessagesDescribes | src/components/chat/ChatArea.tsx:19-64 | date groups are the distinct day labels in first-occurrence order; sender groups are the distinct senders of that day in first-appearance order, named by the mock mapping; each group holds exactly that sender's messages of that day in input order |
| ChatArea.GroupsDistinct | src/components/chat/ChatArea.tsx:39-60 | no label repeats, and no sender repeats within a day |
| ChatArea.DaysMembership | src/components/chat/ChatArea.tsx:39-43 | a label has a date group iff some message falls on that day |
| ChatArea.DaysDistinct | src/components/chat/ChatArea.tsx:39-43 | the day labels are distinct |
| ChatArea.SendersDistinct | src/components/chat/ChatArea.tsx:46-60 | a day's senders are distinct |
| ChatArea.SelectEmpty | src/components/chat/ChatArea.tsx:46-62 | a sender with no message on the day has an empty selection |
| ChatArea.SenderTotalUpdate | src/components/chat/ChatArea.tsx:62 | replacing one sender group changes the message total by the difference |
| ChatArea.DateTotalUpdate | src/components/chat/ChatArea.tsx:62 | replacing one date group changes the total by the difference |
| ChatArea.PlaceCountsOne | src/components/chat/ChatArea.tsx:38-62 | each reduce step adds exactly one message to the total |
| ChatArea.GroupMessagesCount | src/components/chat/ChatArea.tsx:19-64 | the groups hold exactly as many messages as the input; empty input gives no groups |
| ChatArea.MergesNonConsecutiveRuns | src/components/chat/ChatArea.tsx:46-60 | on one day, A, A, B, A gives [A: 1, 2, 4], [B: 3] |
| ChatArea.Submit | src/components/chat/ChatArea.tsx:71-77 | sends iff the input is not blank, sends it untrimmed and clears the box; otherwise keeps it |
| ChatPage.ActiveMessages | src/pages/ChatPage.tsx:177 | the active channel's entry, or none when no channel is active (null or empty id) or it has no entry |
| ChatPage.EmptyActiveIdIsInactive | src/pages/ChatPage.tsx:114-177 | an empty active channel id counts as no active channel: no messages shown, sending does nothing |
| ChatPage.SendMessage | src/pages/ChatPage.tsx:113-126 | no-op without an active channel, with blank content, or without a user; otherwise exactly one message, untrimmed, from the user, appended to the active channel alone |
| ChatPage.SubmitThenSend | src/components/chat/ChatArea.tsx:71-77 | a message box submission reaches the active channel iff it is not blank, and as typed |
| ChatPage.CreateChannel | src/pages/ChatPage.tsx:128-141 | with a user, the channel with fresh id, time and the user as creator is appended and made active, the dialog closes, and messages, loading and error are untouched; without a user nothing changes |
| ChatPage.FindPrivateChat | src/pages/ChatPage.tsx:147-153 | the first private two-member channel containing both ids, or -1 if none |
| ChatPage.NewPrivateChat | src/pages/ChatPage.tsx:161-169 | the new channel is a private chat between the user and the other user, named after the other, created by the user at the current time |
| ChatPage.StartPrivateChat | src/pages/ChatPage.tsx:143-174 | an existing private chat is activated and nothing is added; otherwise a private channel [user, other] is appended, activated and given an empty message list; no-op without a user |
| ChatPage.StartPrivateChatReuses | src/pages/ChatPage.tsx:143-174 | a second start with the same user adds nothing and changes nothing |
| ChannelList.PublicChannels | src/components/chat/ChannelList.tsx:23-26 | exactly the public channels whose lower-cased name contains the lower-cased term, in order |
| ChannelList.PrivateChats | src/components/chat/ChannelList.tsx:28-31 | exactly the private ones, in order |
| ChannelList.Partition | src/components/chat/ChannelList.tsx:23-31 | the two lists are disjoint and together are exactly the channels matching the term |
| ChannelList.EmptySearchListsAll | src/components/chat/ChannelList.tsx:23-31 | an empty term lists every channel of each type |
| NewChannelModal.ChangeName | src/components/chat/NewChannelModal.tsx:69-72 | editing the name clears the error |
| NewChannelModal.Submit | src/components/chat/NewChannelModal.tsx:18-32 | a blank name sets "Channel name is required" and creates nothing; otherwise the trimmed name and description, the selected type and members ["user123"] |
| NewChannelModal.SubmittedNameIsTrimmed | src/components/chat/NewChannelModal.tsx:26-28 | a submitted name has no surrounding whitespace, and pre-trimming the typed name submits the same channel |
| CalendarPage.Project | src/pages/CalendarPage.tsx:84-110 | entry i is the task entry of task i, then entry |tasks| + i is the event entry of event i: task entries first, then event entries, each in store order, nothing else |
| CalendarPage.TaskEntry | src/pages/CalendarPage.tsx:85-95 | a task becomes an all-day entry on its due date, keyed "task-" + id, pointing back at the task |
| CalendarPage.EventEntry | src/pages/CalendarPage.tsx:97-107 | an event becomes an entry from start to end, all-day as it says, keyed "event-" + id, pointing back at the event |
| CalendarPage.TasksOfAppend | src/pages/CalendarPage.tsx:109 | the tasks behind a concatenation are the tasks behind each part |
| CalendarPage.EventsOfAppend | src/pages/CalendarPage.tsx:109 | likewise for events |
| CalendarPage.TaskEntriesRoundTrip | src/pages/CalendarPage.tsx:85-95 | the task entries give back exactly the tasks and no events |
| CalendarPage.EventEntriesRoundTrip | src/pages/CalendarPage.tsx:97-107 | the event entries give back exactly the events and no tasks |
| CalendarPage.ProjectRoundTrip | src/pages/CalendarPage.tsx:84-110 | nothing is lost or invented: the entries give back exactly the tasks and exactly the events |
| CalendarPage.EntryIds | src/pages/CalendarPage.tsx:85-107 | task and event entry ids never collide, and stripping the prefix gives the record id |
| CalendarPage.Colour | src/pages/CalendarPage.tsx:113-143 | an event's own colour unless missing or empty, else #4f46e5; a task's status colour, overridden by red for urgent and orange for high |
| CalendarPage.StatusColoursDistinct | src/pages/CalendarPage.tsx:122-135 | the four status colours differ from each other, from the two priority overrides and from the default event colour |
| CalendarPage.TaskColourDependsOnStatusAndPriority | src/pages/CalendarPage.tsx:121-142 | the colour depends only on status and priority; status is invisible under urgent or high and distinguishes colours under medium or low |
| CalendarPage.MockEvent | src/pages/CalendarPage.tsx:62-75 | iteration i gives "Event i+1" with its description, alternating locations, all-day only for the first, the i-th fixed colour, user123 as creator and sole attendee, and the drawn id and times |
| CalendarPage.MockEvents | src/pages/CalendarPage.tsx:54-77 | five events, the i-th built from the i-th draw |
| CalendarPage.MockEventsShape | src/pages/CalendarPage.tsx:62-75 | titles and colours pairwise distinct, only the first all-day, and the first one's colour equals the default event colour |
| CalendarPage.SeedEvents | src/pages/CalendarPage.tsx:45-81 | an empty store is filled with the five generated events; a non-empty store is left alone |
| DashboardPage.PriorityTasks | src/pages/DashboardPage.tsx:107-111 | exactly the high and urgent tasks, as many as there are, in order |
| DashboardPage.UpcomingEvents | src/pages/DashboardPage.tsx:99-105 | exactly the events starting within [now, now + 24 h], both ends inclusive, as many as there are, in order |
| DashboardPage.ComputeStats | src/pages/DashboardPage.tsx:113-120 | completed and pending count the done and the not-done tasks and add up to all tasks; upcoming counts every event not yet started, with no upper bound, so it is at least the length of the upcoming list |
| DashboardPage.Mount | src/pages/DashboardPage.tsx:19-121 | both stores get the mock arrays, and the view is computed from the same arrays |
| DashboardPage.MockPriorityTasks | src/pages/DashboardPage.tsx:21-111 | of the mock tasks, the priority list is tasks 1 and 3 |
| DashboardPage.MountView | src/pages/DashboardPage.tsx:19-121 | within the first hour after the mock data is built, both mock events are upcoming, tasks 1 and 3 are the priority tasks, and the stats are 0 completed, 3 pending, 2 upcoming |
| SecuritySettings.PasswordError | src/components/settings/SecuritySettings.tsx:21-39 | each message is reported iff its check is the first to fail, in the order current, new, length >= 8, match |
| SecuritySettings.Attempt | src/components/settings/SecuritySettings.tsx:16-41 | messages are cleared; a failure sets its message and starts nothing; success starts the change; the fields are untouched |
| SecuritySettings.Complete | src/components/settings/SecuritySettings.tsx:44-50 | the flag resets, the success message is set and all three fields are cleared |
| SecuritySettings.ShortBeatsMismatch | src/components/settings/SecuritySettings.tsx:31-39 | a short, mismatched password reports the length error |
| SecuritySettings.CurrentPasswordNotCompared | src/components/settings/SecuritySettings.tsx:21-24 | any two non-empty current passwords lead to the same outcome |
| SecuritySettings.SuccessfulChange | src/components/settings/SecuritySettings.tsx:16-50 | a passing attempt and its completion leave an empty form showing only the success message |
| NotificationSettings.InitialFlags | src/components/settings/NotificationSettings.tsx:7-18 | every flag is present and on, except taskCompleted, systemUpdates and marketingEmails |
| NotificationSettings.Toggle | src/components/settings/NotificationSettings.tsx:20-25 | negates exactly the named flag and keeps every other one |
| NotificationSettings.ToggleTwice | src/components/settings/NotificationSettings.tsx:20-25 | toggling a flag twice restores the settings; toggles of two flags commute |
| LoginForm.FillDemo | src/components/auth/LoginForm.tsx:15-18 | fills in exactly the accepted pair |
| LoginForm.DemoUser | src/components/auth/LoginForm.tsx:31-39 | the demo user is "user123", an administrator with the demo email, created and last active at the login time |
| LoginForm.Attempt | src/components/auth/LoginForm.tsx:21-54 | succeeds iff the email and password are exactly the demo pair; success keeps loading on with no error and schedules the admin demo user; failure sets "Invalid email or password" and stops loading |
| LoginForm.Complete | src/components/auth/LoginForm.tsx:42-46 | the scheduled user is stored and loading stops |
| LoginForm.DemoLoginSignsIn | src/components/auth/LoginForm.tsx:15-46 | demo credentials then login sign in user "user123" with role admin |
| LoginForm.NoNormalisation | src/components/auth/LoginForm.tsx:29 | a differently cased or padded email is refused |
| ProfileSettings.Init | src/components/settings/ProfileSettings.tsx:9-19 | name, email and photo from the user or empty without one; the fixed bio, phone and location; not editing, not saving |
| ProfileSettings.Change | src/components/settings/ProfileSettings.tsx:21-24 | only the named field changes |
| ProfileSettings.Submit | src/components/settings/ProfileSettings.tsx:26-28 | saving starts, the form is kept |
| ProfileSettings.Complete | src/components/settings/ProfileSettings.tsx:31-42 | with a captured user, a present stored user becomes it with the name, email and photo of the form as submitted; no store change without one; the live form is kept; both flags end false |
| ProfileSettings.SaveChangesOnlyThreeFields | src/components/settings/ProfileSettings.tsx:32-38 | saving changes only the name, email and photo, to the submitted ones; id, role and stamps are kept, and bio, phone and location have nowhere to go |
| ProfileSettings.EditDuringSaveNotStored | src/components/settings/ProfileSettings.tsx:26-42 | a name typed while the save is pending is not stored: the store gets the submitted name, the form shows the new one |
| ProfileSettings.SaveUnchangedIsNoop | src/components/settings/ProfileSettings.tsx:9-42 | opening and saving without edits leaves the stored user as it was |
| Types.DraftRoundTrips | src/pages/TasksPage.tsx:135-141 | a task or member built from a draft gives that draft back |

## Left out

- Rendering: all JSX, the Tailwind class strings, `calendarStyles`, `dayPropGetter`, the theme context and scrolling are presentation only.
- The other UI files have no rule of their own: the appearance settings, header, sidebar, layout, login page, settings page, member list and test component. Neither do the routes and the `ProtectedRoute` guard in `src/App.tsx`.
- Date handling is not modelled. Timestamps are integers, and the day label of a timestamp (`isToday`, `isYesterday`, `format`, `toDateString`) is a function parameter. So are the task form's date-input conversions (`formatDate`, `parseDate`).
- `toLowerCase` is ASCII-only here. The source lower-cases full Unicode.
- `encodeURIComponent` is a parameter.
- The email regular expression is an explicit predicate, not a regex engine.
- `Math.random` and `uuidv4` are not modelled: ids are inputs, assumed fresh where a lemma needs it.
- The random mock seeding of the chat page (`src/pages/ChatPage.tsx:29-111`) and the team page (`src/pages/TeamPage.tsx:17-69`) is not modelled. The calendar's seeding is modelled; each iteration's id, start, end and stamps are inputs (`Draw`), because the random day, hour and duration and the date arithmetic behind them are not modelled.
- `setTimeout` is not modelled: each delayed completion is a separate step. `window.confirm` is a boolean input. Navigation after login is left out.
- The subscription and re-render mechanics of zustand and React effects are left out. The dashboard's one-time mount is a single function.
- The optional `Task`, `Message` and `Channel` fields that no modelled rule reads are left out.
- SecuritySettings.PasswordError: the length check uses `seq` length. JavaScript counts UTF-16 code units, so a password with characters outside the basic plane can differ.
- The security panel's two-factor switch and session timeout are plain state setters with no rule, and are left out.
- The status menu's close on any outside click is left out. It is an event-listener side effect.
- TaskForm.Init, TeamMemberForm.Init: describe a fresh mount only. A form that stays mounted while its edited record changes is described by `Reload`. The page-level clicks that lead there are not modelled.
- TaskForm.EditUnchangedRoundTrip: holds only when the date input round-trips the due time. The source's date input keeps only the calendar day, so in general editing moves the due time to the start of that day.
- `Array.prototype.sort` is modelled by a stable insertion sort, which puts elements in the same order. There is no worked concrete example of a tie; stability is stated through `Ties`.
- ProfileSettings.Complete: the timeout closure captures both the user and the form at submit time, and the model takes both as inputs. Fields changed in the store between submit and completion are overwritten by the captured user, and edits typed during the save are not stored.
- TasksPage.HandleAddTask: reads the clock once, so createdAt equals updatedAt. The source calls `new Date()` once per field, and the two can differ by a millisecond.
- TeamPage.HandleAddMember: reads the clock once, so createdAt equals lastActive. The source reads the clock once per field.
- ChatPage.SendMessage: reads the clock once, so a message's createdAt equals its updatedAt. The source reads the clock once per field.
- LoginForm.DemoUser: reads the clock once, so createdAt equals lastActive. The source reads the clock once per field.

=== FILE: auth_store.dfy ===
/** The auth store: a nullable current user with loading and error flags.
    There is no credential check here; the login form calls `SetUser`. */
module AuthStore {
  import opened Types

  datatype AuthState = AuthState(user: Option<User>, isLoading: bool, error: Option<string>)

  /** The store starts with no user, loading, and no error. */
  const Initial := AuthState(None, true, None)

  lemma InitialState()
    ensures Initial.user == None && Initial.isLoading && Initial.error == None
  {
  }

  /** `setUser`: the user is replaced wholesale (possibly by null). */
  function SetUser(s: AuthState, user: Option<User>): (r: AuthState)
    ensures r.user == user
    ensures r.isLoading == s.isLoading && r.error == s.error
  {
    s.(user := user)
  }

  /** `setLoading`. */
  function SetLoading(s: AuthState, isLoading: bool): (r: AuthState)
    ensures r.isLoading == isLoading
    ensures r.user == s.user && r.error == s.error
  {
    s.(isLoading := isLoading)
  }

  /** `setError`. */
  function SetError(s: AuthState, error: Option<string>): (r: AuthState)
    ensures r.error == error
    ensures r.user == s.user && r.isLoading == s.isLoading
  {
    s.(error := error)
  }

  /** `logout`: user and error are cleared; the loading flag is kept. */
  function Logout(s: AuthState): (r: AuthState)
    ensures r.user == None && r.error == None
    ensures r.isLoading == s.isLoading
  {
    s.(user := None, error := None)
  }

  /** `updateUser`: merges the supplied fields into a present user; a field
      the patch leaves out keeps its value; with no user, there is still no
      user. */
  function UpdateUser(s: AuthState, p: UserPatch): (r: AuthState)
    ensures s.user == None ==> r.user == None
    ensures s.user != None ==> r.user != None
    ensures s.user != None ==> var u, v := s.user.value, r.user.value;
      && v.id == p.id.GetOr(u.id)
      && v.displayName == p.displayName.GetOr(u.displayName)
      && v.email == p.email.GetOr(u.email)
      && v.photoURL == p.photoURL.GetOr(u.photoURL)
      && v.role == p.role.GetOr(u.role)
      && v.createdAt == p.createdAt.GetOr(u.createdAt)
      && v.lastActive == p.lastActive.GetOr(u.lastActive)
    ensures r.isLoading == s.isLoading && r.error == s.error
  {
    s.(user := if s.user.Some? then Some(p.ApplyTo(s.user.value)) else None)
  }

  /** A patch that supplies every field replaces a present user by exactly
      the patched record; an empty patch changes nothing. */
  lemma UpdateUserFullAndEmpty(s: AuthState, u: User)
    requires s.user != None
    ensures UpdateUser(s, FullUserPatch(u)).user == Some(u)
    ensures UpdateUser(s, UserPatch(None, None, None, None, None, None, None)) == s
  {
  }

  /** After logout no update brings a user back. */
  lemma UpdateAfterLogout(s: AuthState, p: UserPatch)
    ensures UpdateUser(Logout(s), p).user == None
  {
  }
}

=== FILE: calendar_page.dfy ===
/** The calendar page: the projection of tasks and events into one list of
    calendar entries, the entry colour rule, and the one-time seeding of the
    event store. Timestamps stay integers; the source wraps them in `Date`
    objects. */
module CalendarPage {
  import opened Types
  import opened EventStore

  /** What an entry was made from (the source's `resource`). */
  datatype Resource = TaskRes(task: Task) | EventRes(event: Event)

  datatype CalendarEntry = CalendarEntry(
    id: string,
    title: string,
    start: int,
    end: int,
    allDay: Option<bool>,
    resource: Resource)

  const TaskIcon := "\U{1F4CB} "
  const EventIcon := "\U{1F5D3}\U{FE0F} "

  /** A task is shown as an all-day entry on its due date, keyed by its id
      under the `task-` prefix. */
  function TaskEntry(t: Task): (r: CalendarEntry)
    ensures r.resource == TaskRes(t)
    ensures r.start == t.dueDate && r.end == t.dueDate && r.allDay == Some(true)
    ensures |r.id| == |"task-"| + |t.id|
    ensures r.id[..|"task-"|] == "task-" && r.id[|"task-"|..] == t.id
  {
    CalendarEntry("task-" + t.id, TaskIcon + t.title, t.dueDate, t.dueDate, Some(true), TaskRes(t))
  }

  /** An event is shown from its start to its end, all-day when it says so,
      keyed by its id under the `event-` prefix. */
  function EventEntry(e: Event): (r: CalendarEntry)
    ensures r.resource == EventRes(e)
    ensures r.start == e.startTime && r.end == e.endTime && r.allDay == e.isAllDay
    ensures |r.id| == |"event-"| + |e.id|
    ensures r.id[..|"event-"|] == "event-" && r.id[|"event-"|..] == e.id
  {
    CalendarEntry("event-" + e.id, EventIcon + e.title, e.startTime, e.endTime, e.isAllDay, EventRes(e))
  }

  /** `[...taskEvents, ...eventEvents]`: one entry per task, in store order,
      followed by one entry per event, in store order. */
  function Project(tasks: seq<Task>, events: seq<Event>): (r: seq<CalendarEntry>)
    ensures |r| == |tasks| + |events|
    ensures forall i :: 0 <= i < |tasks| ==> r[i] == TaskEntry(tasks[i])
    ensures forall i :: 0 <= i < |events| ==> r[|tasks| + i] == EventEntry(events[i])
    ensures forall i :: 0 <= i < |tasks| ==> r[i].resource == TaskRes(tasks[i])
    ensures forall i :: 0 <= i < |events| ==> r[|tasks| + i].resource == EventRes(events[i])
    ensures forall i :: 0 <= i < |tasks| ==>
      var t := tasks[i];
      r[i].start == t.dueDate && r[i].end == t.dueDate && r[i].allDay == Some(true)
    ensures forall i :: 0 <= i < |events| ==>
      var e := events[i];
      r[|tasks| + i].start == e.startTime && r[|tasks| + i].end == e.endTime && r[|tasks| + i].allDay == e.isAllDay
  {
    seq(|tasks|, i requires 0 <= i < |tasks| => TaskEntry(tasks[i]))
      + seq(|events|, i requires 0 <= i < |events| => EventEntry(events[i]))
  }

  /** The tasks an entry list was made from, in order. */
  function TasksOf(es: seq<CalendarEntry>): seq<Task>
  {
    if |es| == 0 then []
    else (if es[0].resource.TaskRes? then [es[0].resource.task] else []) + TasksOf(es[1..])
  }

  /** The events an entry list was made from, in order. */
  function EventsOf(es: seq<CalendarEntry>): seq<Event>
  {
    if |es| == 0 then []
    else (if es[0].resource.EventRes? then [es[0].resource.event] else []) + EventsOf(es[1..])
  }

  lemma {:induction false} TasksOfAppend(a: seq<CalendarEntry>, b: seq<CalendarEntry>)
    ensures TasksOf(a + b) == TasksOf(a) + TasksOf(b)
  {
    if |a| == 0 {
      assert a + b == b;
    } else {
      var head := if a[0].resource.TaskRes? then [a[0].resource.task] else [];
      assert (a + b)[0] == a[0] && (a + b)[1..] == a[1..] + b;
      TasksOfAppend(a[1..], b);
      assert TasksOf(a + b) == head + TasksOf(a[1..] + b);
      assert head + (TasksOf(a[1..]) + TasksOf(b)) == (head + TasksOf(a[1..])) + TasksOf(b);
    }
  }

  lemma {:induction false} EventsOfAppend(a: seq<CalendarEntry>, b: seq<CalendarEntry>)
    ensures EventsOf(a + b) == EventsOf(a) + EventsOf(b)
  {
    if |a| == 0 {
      assert a + b == b;
    } else {
      var head := if a[0].resource.EventRes? then [a[0].resource.event] else [];
      assert (a + b)[0] == a[0] && (a + b)[1..] == a[1..] + b;
      EventsOfAppend(a[1..], b);
      assert EventsOf(a + b) == head + EventsOf(a[1..] + b);
      assert head + (EventsOf(a[1..]) + EventsOf(b)) == (head + EventsOf(a[1..])) + EventsOf(b);
    }
  }

  lemma {:induction false} TaskEntriesRoundTrip(tasks: seq<Task>)
    ensures var es := seq(|tasks|, i requires 0 <= i < |tasks| => TaskEntry(tasks[i]));
      TasksOf(es) == tasks && EventsOf(es) == []
  {
    var es := seq(|tasks|, i requires 0 <= i < |tasks| => TaskEntry(tasks[i]));
    if |tasks| > 0 {
      TaskEntriesRoundTrip(tasks[1..]);
      assert es[1..] == seq(|tasks[1..]|, i requires 0 <= i < |tasks[1..]| => TaskEntry(tasks[1..][i]));
    }
  }

  lemma {:induction false} EventEntriesRoundTrip(events: seq<Event>)
    ensures var es := seq(|events|, i requires 0 <= i < |events| => EventEntry(events[i]));
      EventsOf(es) == events && TasksOf(es) == []
  {
    var es := seq(|events|, i requires 0 <= i < |events| => EventEntry(events[i]));
    if |events| > 0 {
      EventEntriesRoundTrip(events[1..]);
      assert es[1..] == seq(|events[1..]|, i requires 0 <= i < |events[1..]| => EventEntry(events[1..][i]));
    }
  }

  /** Nothing is lost or invented: the task entries give back exactly the
      tasks and the event entries exactly the events, each in order. */
  lemma ProjectRoundTrip(tasks: seq<Task>, events: seq<Event>)
    ensures TasksOf(Project(tasks, events)) == tasks
    ensures EventsOf(Project(tasks, events)) == events
  {
    var ts := seq(|tasks|, i requires 0 <= i < |tasks| => TaskEntry(tasks[i]));
    var evs := seq(|events|, i requires 0 <= i < |events| => EventEntry(events[i]));
    TasksOfAppend(ts, evs);
    EventsOfAppend(ts, evs);
    TaskEntriesRoundTrip(tasks);
    EventEntriesRoundTrip(events);
  }

  /** Entry ids carry their kind as a prefix, so a task entry and an event
      entry never share an id, and the record id is the rest. */
  lemma EntryIds(t: Task, e: Event)
    ensures TaskEntry(t).id != EventEntry(e).id
    ensures TaskEntry(t).id[|"task-"|..] == t.id
    ensures EventEntry(e).id[|"event-"|..] == e.id
  {
    assert TaskEntry(t).id[0] == 't' && EventEntry(e).id[0] == 'e';
  }

  // ---------------------------------------------------------------------
  // Colours

  const DefaultEventColour := "#4f46e5"

  /** A task's colour before the priority override. */
  function StatusColour(s: Status): string
  {
    match s
    case Todo => "#3b82f6"
    case InProgress => "#eab308"
    case Review => "#8b5cf6"
    case Done => "#22c55e"
  }

  /** `eventStyleGetter`'s background colour. An event uses its own colour
      unless that is missing or empty (both falsy), falling back to the
      default. A task uses its status colour, except that urgent and high
      priority override it with red and orange. */
  function Colour(entry: CalendarEntry): (c: string)
    ensures c != ""
    ensures entry.resource.EventRes? ==>
      var col := entry.resource.event.color;
      (col.Some? && col.value != "" ==> c == col.value) && (col.None? || col.value == "" ==> c == DefaultEventColour)
    ensures entry.resource.TaskRes? ==>
      var t := entry.resource.task;
      && (t.priority == Urgent ==> c == "#ef4444")
      && (t.priority == High ==> c == "#f97316")
      && (t.priority in {Medium, Low} ==> c == StatusColour(t.status))
  {
    match entry.resource
    case EventRes(e) =>
      if e.color.Some? && e.color.value != "" then e.color.value else DefaultEventColour
    case TaskRes(t) =>
      if t.priority == Urgent then "#ef4444"
      else if t.priority == High then "#f97316"
      else StatusColour(t.status)
  }

  /** Distinct statuses get distinct colours, and no status colour is one
      of the two priority overrides, so an urgent or high task is never
      mistaken for a status. */
  lemma StatusColoursDistinct(s: Status, u: Status)
    ensures s != u ==> StatusColour(s) != StatusColour(u)
    ensures StatusColour(s) != "#ef4444" && StatusColour(s) != "#f97316"
    ensures StatusColour(s) != DefaultEventColour
  {
  }

  /** A task's colour depends only on its status and priority, and the
      status is invisible once the priority is urgent or high. */
  lemma TaskColourDependsOnStatusAndPriority(t: Task, u: Task)
    ensures t.status == u.status && t.priority == u.priority ==> Colour(TaskEntry(t)) == Colour(TaskEntry(u))
    ensures t.priority == u.priority && t.priority in {Urgent, High} ==> Colour(TaskEntry(t)) == Colour(TaskEntry(u))
    ensures t.priority in {Medium, Low} && t.status != u.status && u.priority in {Medium, Low} ==>
      Colour(TaskEntry(t)) != Colour(TaskEntry(u))
  {
  }

  // ---------------------------------------------------------------------
  // Seeding

  /** What one loop iteration draws at random or reads from the clock: a
      fresh id, the start and end it computed from a random day, hour and
      duration, and the two creation stamps. */
  datatype Draw = Draw(id: string, startTime: int, endTime: int, createdAt: int, updatedAt: int)

  const MockCount := 5
  const MockColours := ["#4f46e5", "#0891b2", "#7c3aed", "#059669", "#d97706"]

  /** The decimal numeral of a single digit. */
  function Numeral(n: nat): (r: string)
    requires n <= 9
    ensures |r| == 1 && '0' <= r[0] <= '9'
    ensures r[0] as int - '0' as int == n
  {
    [(('0' as int) + n) as char]
  }

  /** Iteration `i` of the seeding loop, counted from zero. */
  function MockEvent(i: nat, d: Draw): (e: Event)
    requires i < MockCount
    ensures e.id == d.id && e.startTime == d.startTime && e.endTime == d.endTime
    ensures e.title == "Event " + Numeral(i + 1)
    ensures e.description == "This is a mock event " + Numeral(i + 1)
    ensures e.location == Some(if i % 2 == 0 then "Conference Room A" else "Virtual Meeting")
    ensures e.isAllDay == Some(i == 0)
    ensures e.color == Some(MockColours[i])
    ensures e.createdById == "user123" && e.attendees == ["user123"]
  {
    Event(d.id, "Event " + Numeral(i + 1), "This is a mock event " + Numeral(i + 1),
          Some(if i % 2 == 0 then "Conference Room A" else "Virtual Meeting"),
          d.startTime, d.endTime, d.createdAt, d.updatedAt, "user123", ["user123"],
          Some(i == 0), None, None, Some(MockColours[i]))
  }

  /** The five generated events, one per draw, in loop order. */
  function MockEvents(draws: seq<Draw>): (r: seq<Event>)
    requires |draws| == MockCount
    ensures |r| == MockCount
    ensures forall i :: 0 <= i < MockCount ==> r[i] == MockEvent(i, draws[i])
  {
    seq(MockCount, i requires 0 <= i < MockCount => MockEvent(i, draws[i]))
  }

  /** The generated events have distinct titles and distinct colours, only
      the first is all-day, and that first one's colour is the default
      event colour, so on the calendar it looks like an event without a
      colour. */
  lemma MockEventsShape(draws: seq<Draw>)
    requires |draws| == MockCount
    ensures var r := MockEvents(draws);
      && (forall i, j :: 0 <= i < j < MockCount ==> r[i].title != r[j].title && r[i].color != r[j].color)
      && (forall i :: 0 <= i < MockCount ==> (r[i].isAllDay == Some(true) <==> i == 0))
      && r[0].color == Some(DefaultEventColour)
  {
    var r := MockEvents(draws);
    forall i, j | 0 <= i < j < MockCount
      ensures r[i].title != r[j].title && r[i].color != r[j].color
    {
      assert r[i].title[|"Event "|] == Numeral(i + 1)[0];
      assert r[j].title[|"Event "|] == Numeral(j + 1)[0];
    }
  }

  /** The seeding effect: when the event store is empty, it is filled with
      the five generated events; otherwise it is left alone. */
  function SeedEvents(s: EventState, draws: seq<Draw>): (r: EventState)
    requires |draws| == MockCount
    ensures |s.events| == 0 ==> r.events == MockEvents(draws) && |r.events| == MockCount
    ensures |s.events| > 0 ==> r == s
    ensures r.isLoading == s.isLoading && r.error == s.error
  {
    if |s.events| == 0 then SetEvents(s, MockEvents(draws)) else s
  }
}

=== FILE: channel_list.dfy ===
/** The channel sidebar: public channels and private chats, each filtered by
    a case-insensitive search on the channel name. */
module ChannelList {
  import opened Types
  import opened Seqs
  import opened Text

  /** The channel is of type `t` and its name matches the search. */
  function ListedAs(term: string, t: ChannelType): Channel -> bool
  {
    (c: Channel) => c.channelType == t && IncludesIgnoringCase(c.name, term)
  }

  /** The channel's name matches the search, whatever its type. */
  function Matches(term: string): Channel -> bool
  {
    (c: Channel) => IncludesIgnoringCase(c.name, term)
  }

  /** `publicChannels`. */
  function PublicChannels(channels: seq<Channel>, term: string): (r: seq<Channel>)
    ensures forall x :: x in r <==> x in channels && x.channelType == Public && IncludesIgnoringCase(x.name, term)
    ensures IsSubsequence(r, channels)
  {
    Filter(channels, ListedAs(term, Public))
  }

  /** `privateChats`. */
  function PrivateChats(channels: seq<Channel>, term: string): (r: seq<Channel>)
    ensures forall x :: x in r <==> x in channels && x.channelType == Private && IncludesIgnoringCase(x.name, term)
    ensures IsSubsequence(r, channels)
  {
    Filter(channels, ListedAs(term, Private))
  }

  /** The two lists split the matching channels: no channel is in both,
      every matching channel is in one of them, and their lengths add up to
      the number of matching channels (counted with repeats). */
  lemma Partition(channels: seq<Channel>, term: string)
    ensures var pub, priv := PublicChannels(channels, term), PrivateChats(channels, term);
      && (forall x :: !(x in pub && x in priv))
      && (forall x :: x in pub || x in priv <==> x in channels && IncludesIgnoringCase(x.name, term))
      && |pub| + |priv| == Count(channels, Matches(term))
  {
    CountDisjointSum(channels, ListedAs(term, Public), ListedAs(term, Private), Matches(term));
  }

  /** With an empty search every channel is listed exactly once. */
  lemma EmptySearchListsAll(channels: seq<Channel>)
    ensures forall x :: x in PublicChannels(channels, "") <==> x in channels && x.channelType == Public
    ensures forall x :: x in PrivateChats(channels, "") <==> x in channels && x.channelType == Private
    ensures |PublicChannels(channels, "")| + |PrivateChats(channels, "")| == |channels|
  {
    forall x: Channel ensures IncludesIgnoringCase(x.name, "") {
      ContainsEmpty(ToLower(x.name));
    }
    Partition(channels, "");
  }
}

=== FILE: chat_area.dfy ===
/** The chat transcript: the `reduce` that groups a channel's messages first
    by day label and then by sender, the mock sender names, and the send
    guard of the message box. The day label ("Today", "Yesterday" or a
    formatted date) is a parameter `dayOf` from timestamps to labels. */
module ChatArea {
  import opened Types
  import opened Seqs
  import opened Text

  datatype SenderGroup = SenderGroup(userId: string, userName: string, messages: seq<Message>)

  datatype DateGroup = DateGroup(date: string, groups: seq<SenderGroup>)

  /** The mock name shown for a sender: the three demonstration users have
      names of their own, every other id shows as unknown. */
  function UserName(userId: string): (name: string)
    ensures name == "Unknown User" <==> userId !in {"user123", "user456", "user789"}
    ensures userId == "user123" ==> name == "John Doe (You)"
    ensures userId == "user456" ==> name == "Jane Smith"
    ensures userId == "user789" ==> name == "Michael Johnson"
  {
    if userId == "user123" then "John Doe (You)"
    else if userId == "user456" then "Jane Smith"
    else if userId == "user789" then "Michael Johnson"
    else "Unknown User"
  }

  // ---------------------------------------------------------------------
  // The reduce, one message at a time

  /** `acc.find(group => group.date === day)` as an index, -1 when none. */
  function FindDate(acc: seq<DateGroup>, day: string): (i: int)
    ensures -1 <= i < |acc|
    ensures i >= 0 ==> acc[i].date == day && forall k :: 0 <= k < i ==> acc[k].date != day
    ensures i < 0 ==> forall k :: 0 <= k < |acc| ==> acc[k].date != day
  {
    if |acc| == 0 then -1
    else if acc[0].date == day then 0
    else
      var i := FindDate(acc[1..], day);
      if i < 0 then -1 else i + 1
  }

  /** `dateGroup.groups.find(group => group.userId === userId)` as an
      index, -1 when none. */
  function FindSender(groups: seq<SenderGroup>, userId: string): (j: int)
    ensures -1 <= j < |groups|
    ensures j >= 0 ==> groups[j].userId == userId && forall k :: 0 <= k < j ==> groups[k].userId != userId
    ensures j < 0 ==> forall k :: 0 <= k < |groups| ==> groups[k].userId != userId
  {
    if |groups| == 0 then -1
    else if groups[0].userId == userId then 0
    else
      var j := FindSender(groups[1..], userId);
      if j < 0 then -1 else j + 1
  }

  /** Pushes `m` onto its sender's group, creating the group (with the
      sender's name) at the end when there is none. */
  function PlaceInDate(groups: seq<SenderGroup>, m: Message): seq<SenderGroup>
  {
    var j := FindSender(groups, m.userId);
    if j < 0 then groups + [SenderGroup(m.userId, UserName(m.userId), [m])]
    else groups[j := groups[j].(messages := groups[j].messages + [m])]
  }

  /** One step of the reduce: finds or creates the date group for `day`,
      then places `m` in it. */
  function Place(acc: seq<DateGroup>, day: string, m: Message): seq<DateGroup>
  {
    var i := FindDate(acc, day);
    if i < 0 then acc + [DateGroup(day, [SenderGroup(m.userId, UserName(m.userId), [m])])]
    else acc[i := acc[i].(groups := PlaceInDate(acc[i].groups, m))]
  }

  /** `groupedMessages`: the reduce over the messages in order. */
  function GroupMessages(ms: seq<Message>, dayOf: int -> string): seq<DateGroup>
  {
    if |ms| == 0 then []
    else Place(GroupMessages(ms[..|ms| - 1], dayOf), dayOf(ms[|ms| - 1].createdAt), ms[|ms| - 1])
  }

  // ---------------------------------------------------------------------
  // An independent description of the grouping

  /** The distinct day labels of `ms`, in order of first occurrence. */
  function Days(ms: seq<Message>, dayOf: int -> string): seq<string>
  {
    if |ms| == 0 then []
    else
      var d := Days(ms[..|ms| - 1], dayOf);
      var day := dayOf(ms[|ms| - 1].createdAt);
      if day in d then d else d + [day]
  }

  /** The distinct senders of the messages of `ms` on day `day`, in order
      of first occurrence. */
  function SendersOn(ms: seq<Message>, dayOf: int -> string, day: string): seq<string>
  {
    if |ms| == 0 then []
    else
      var u := SendersOn(ms[..|ms| - 1], dayOf, day);
      var m := ms[|ms| - 1];
      if dayOf(m.createdAt) == day && m.userId !in u then u + [m.userId] else u
  }

  /** The messages of `ms` on day `day` by sender `userId`, in order. */
  function Select(ms: seq<Message>, dayOf: int -> string, day: string, userId: string): seq<Message>
  {
    if |ms| == 0 then []
    else
      var m := ms[|ms| - 1];
      Select(ms[..|ms| - 1], dayOf, day, userId)
        + (if dayOf(m.createdAt) == day && m.userId == userId then [m] else [])
  }

  /** A sender group carries its sender's mock name and exactly that
      sender's messages of the day, in order. */
  predicate SenderGroupOk(g: SenderGroup, ms: seq<Message>, dayOf: int -> string, day: string)
  {
    g.userName == UserName(g.userId) && g.messages == Select(ms, dayOf, day, g.userId)
  }

  /** A date group has one sender group per distinct sender of that day, in
      order of first message. */
  predicate DateGroupOk(g: DateGroup, ms: seq<Message>, dayOf: int -> string)
  {
    var us := SendersOn(ms, dayOf, g.date);
    && |g.groups| == |us|
    && forall j :: 0 <= j < |us| ==> g.groups[j].userId == us[j] && SenderGroupOk(g.groups[j], ms, dayOf, g.date)
  }

  /** `r` has one date group per distinct day label, in order of first
      message, each grouped by sender as above. */
  predicate Describes(r: seq<DateGroup>, ms: seq<Message>, dayOf: int -> string)
  {
    var ds := Days(ms, dayOf);
    && |r| == |ds|
    && forall i :: 0 <= i < |ds| ==> r[i].date == ds[i] && DateGroupOk(r[i], ms, dayOf)
  }

  // ---------------------------------------------------------------------
  // Facts about the description

  /** A label is among the days exactly when some message carries it. */
  lemma {:induction false} DaysMembership(ms: seq<Message>, dayOf: int -> string, day: string)
    ensures day in Days(ms, dayOf) <==> exists i :: 0 <= i < |ms| && dayOf(ms[i].createdAt) == day
  {
    if |ms| > 0 {
      var pre := ms[..|ms| - 1];
      DaysMembership(pre, dayOf, day);
      if day in Days(ms, dayOf) && day !in Days(pre, dayOf) {
        assert dayOf(ms[|ms| - 1].createdAt) == day;
      }
      if exists i :: 0 <= i < |ms| && dayOf(ms[i].createdAt) == day {
        var i :| 0 <= i < |ms| && dayOf(ms[i].createdAt) == day;
        if i < |ms| - 1 {
          assert pre[i] == ms[i];
        }
      }
    }
  }

  /** No label is listed twice. */
  lemma {:induction false} DaysDistinct(ms: seq<Message>, dayOf: int -> string)
    ensures NoDuplicates(Days(ms, dayOf))
  {
    if |ms| > 0 {
      DaysDistinct(ms[..|ms| - 1], dayOf);
    }
  }

  /** No sender is listed twice for a day. */
  lemma {:induction false} SendersDistinct(ms: seq<Message>, dayOf: int -> string, day: string)
    ensures NoDuplicates(SendersOn(ms, dayOf, day))
  {
    if |ms| > 0 {
      SendersDistinct(ms[..|ms| - 1], dayOf, day);
    }
  }

  /** A day with no message has no senders, and a sender not listed for a
      day has no messages on it. */
  lemma {:induction false} SelectEmpty(ms: seq<Message>, dayOf: int -> string, day: string, userId: string)
    ensures day !in Days(ms, dayOf) ==> SendersOn(ms, dayOf, day) == []
    ensures userId !in SendersOn(ms, dayOf, day) ==> Select(ms, dayOf, day, userId) == []
  {
    if |ms| > 0 {
      SelectEmpty(ms[..|ms| - 1], dayOf, day, userId);
    }
  }

  /** The one-message step keeps the description: placing the next message
      into a grouping of the earlier ones describes them all. */
  lemma {:induction false} PlaceDescribes(acc: seq<DateGroup>, ms: seq<Message>, dayOf: int -> string, m: Message)
    requires Describes(acc, ms, dayOf)
    ensures Describes(Place(acc, dayOf(m.createdAt), m), ms + [m], dayOf)
  {
    var ms' := ms + [m];
    assert ms'[..|ms|] == ms;
    var day := dayOf(m.createdAt);
    var ds := Days(ms, dayOf);
    var r := Place(acc, day, m);
    var i := FindDate(acc, day);
    DaysDistinct(ms, dayOf);
    assert day in ds <==> i >= 0 by {
      if day in ds {
        var k :| 0 <= k < |ds| && ds[k] == day;
        assert acc[k].date == day;
      }
    }
    // Other days are untouched by `m`.
    forall d | d != day
      ensures SendersOn(ms', dayOf, d) == SendersOn(ms, dayOf, d)
      ensures forall u :: Select(ms', dayOf, d, u) == Select(ms, dayOf, d, u)
    {
    }
    forall k | 0 <= k < |acc| && k != i
      ensures DateGroupOk(acc[k], ms', dayOf)
    {
      assert acc[k].date == ds[k];
      if i >= 0 {
        assert ds[i] == day;
      }
      assert acc[k].date != day;
    }
    if i < 0 {
      SelectEmpty(ms, dayOf, day, m.userId);
      assert Select(ms', dayOf, day, m.userId) == [m];
      assert DateGroupOk(r[|acc|], ms', dayOf);
    } else {
      assert DateGroupOk(r[i], ms', dayOf) by {
        PlaceInDateOk(acc[i], ms, dayOf, m);
      }
    }
  }

  /** Placing `m` into the date group of its own day keeps that group's
      description. */
  lemma {:induction false} PlaceInDateOk(g: DateGroup, ms: seq<Message>, dayOf: int -> string, m: Message)
    requires g.date == dayOf(m.createdAt)
    requires DateGroupOk(g, ms, dayOf)
    ensures DateGroupOk(g.(groups := PlaceInDate(g.groups, m)), ms + [m], dayOf)
  {
    var ms' := ms + [m];
    assert ms'[..|ms|] == ms;
    var day := g.date;
    var us := SendersOn(ms, dayOf, day);
    var gs := PlaceInDate(g.groups, m);
    var j := FindSender(g.groups, m.userId);
    SendersDistinct(ms, dayOf, day);
    assert m.userId in us <==> j >= 0 by {
      if m.userId in us {
        var k :| 0 <= k < |us| && us[k] == m.userId;
        assert g.groups[k].userId == m.userId;
      }
    }
    forall u | u != m.userId
      ensures Select(ms', dayOf, day, u) == Select(ms, dayOf, day, u)
    {
    }
    assert Select(ms', dayOf, day, m.userId) == Select(ms, dayOf, day, m.userId) + [m];
    if j < 0 {
      SelectEmpty(ms, dayOf, day, m.userId);
      assert SendersOn(ms', dayOf, day) == us + [m.userId];
      forall k | 0 <= k < |us|
        ensures gs[k].userId == us[k] && SenderGroupOk(gs[k], ms', dayOf, day)
      {
        assert gs[k] == g.groups[k];
      }
    } else {
      assert SendersOn(ms', dayOf, day) == us;
      forall k | 0 <= k < |us| && k != j
        ensures gs[k].userId == us[k] && SenderGroupOk(gs[k], ms', dayOf, day)
      {
        assert gs[k] == g.groups[k];
        assert us[k] != us[j];
      }
    }
  }

  /** The grouping is exactly the description: distinct day labels in order
      of first message; per day, one group per sender in order of first
      message, so a sender's non-consecutive messages of one day share a
      group; each group holds that sender's messages of the day in input
      order under the sender's mock name. */
  lemma {:induction false} GroupMessagesDescribes(ms: seq<Message>, dayOf: int -> string)
    ensures Describes(GroupMessages(ms, dayOf), ms, dayOf)
  {
    if |ms| > 0 {
      var pre := ms[..|ms| - 1];
      GroupMessagesDescribes(pre, dayOf);
      PlaceDescribes(GroupMessages(pre, dayOf), pre, dayOf, ms[|ms| - 1]);
      assert pre + [ms[|ms| - 1]] == ms;
    }
  }

  /** Date groups have distinct labels, and sender groups within a date
      group have distinct senders. */
  lemma GroupsDistinct(ms: seq<Message>, dayOf: int -> string)
    ensures var r := GroupMessages(ms, dayOf);
      && (forall i, k :: 0 <= i < k < |r| ==> r[i].date != r[k].date)
      && (forall i, j, k :: 0 <= i < |r| && 0 <= j < k < |r[i].groups| ==>
            r[i].groups[j].userId != r[i].groups[k].userId)
  {
    var r := GroupMessages(ms, dayOf);
    GroupMessagesDescribes(ms, dayOf);
    DaysDistinct(ms, dayOf);
    forall i | 0 <= i < |r|
      ensures NoDuplicates(SendersOn(ms, dayOf, r[i].date))
    {
      SendersDistinct(ms, dayOf, r[i].date);
    }
  }

  // ---------------------------------------------------------------------
  // Every message is placed exactly once

  /** Number of messages in a day's sender groups. */
  function SenderTotal(gs: seq<SenderGroup>): nat
  {
    if |gs| == 0 then 0 else SenderTotal(gs[..|gs| - 1]) + |gs[|gs| - 1].messages|
  }

  /** Number of messages in all date groups. */
  function DateTotal(ds: seq<DateGroup>): nat
  {
    if |ds| == 0 then 0 else DateTotal(ds[..|ds| - 1]) + SenderTotal(ds[|ds| - 1].groups)
  }

  lemma {:induction false} SenderTotalUpdate(gs: seq<SenderGroup>, j: nat, g: SenderGroup)
    requires j < |gs|
    ensures SenderTotal(gs[j := g]) == SenderTotal(gs) - |gs[j].messages| + |g.messages|
  {
    var n := |gs| - 1;
    assert gs[j := g][..n] == if j == n then gs[..n] else gs[..n][j := g];
    if j < n {
      SenderTotalUpdate(gs[..n], j, g);
    }
  }

  lemma {:induction false} DateTotalUpdate(ds: seq<DateGroup>, i: nat, d: DateGroup)
    requires i < |ds|
    ensures DateTotal(ds[i := d]) == DateTotal(ds) - SenderTotal(ds[i].groups) + SenderTotal(d.groups)
  {
    var n := |ds| - 1;
    assert ds[i := d][..n] == if i == n then ds[..n] else ds[..n][i := d];
    if i < n {
      DateTotalUpdate(ds[..n], i, d);
    }
  }

  /** Placing a message adds exactly one message to the grouping. */
  lemma PlaceCountsOne(acc: seq<DateGroup>, day: string, m: Message)
    ensures DateTotal(Place(acc, day, m)) == DateTotal(acc) + 1
  {
    var i := FindDate(acc, day);
    var single := [SenderGroup(m.userId, UserName(m.userId), [m])];
    assert SenderTotal(single) == 1 by {
      assert single[..0] == [];
    }
    if i < 0 {
      assert (acc + [DateGroup(day, single)])[..|acc|] == acc;
    } else {
      var gs := acc[i].groups;
      var j := FindSender(gs, m.userId);
      if j < 0 {
        assert (gs + single)[..|gs|] == gs;
      } else {
        SenderTotalUpdate(gs, j, gs[j].(messages := gs[j].messages + [m]));
      }
      DateTotalUpdate(acc, i, acc[i].(groups := PlaceInDate(gs, m)));
    }
  }

  /** The grouping holds as many messages as the input; with no input it
      is empty. */
  lemma {:induction false} GroupMessagesCount(ms: seq<Message>, dayOf: int -> string)
    ensures DateTotal(GroupMessages(ms, dayOf)) == |ms|
    ensures |ms| == 0 ==> GroupMessages(ms, dayOf) == []
  {
    if |ms| > 0 {
      var pre := ms[..|ms| - 1];
      GroupMessagesCount(pre, dayOf);
      PlaceCountsOne(GroupMessages(pre, dayOf), dayOf(ms[|ms| - 1].createdAt), ms[|ms| - 1]);
    }
  }

  /** Within one day, sender A, A, B, A gives two groups, [A, A, A] and
      [B], not three runs. */
  lemma MergesNonConsecutiveRuns(m1: Message, m2: Message, m3: Message, m4: Message, dayOf: int -> string)
    requires m1.userId == m2.userId == m4.userId != m3.userId
    requires dayOf(m1.createdAt) == dayOf(m2.createdAt) == dayOf(m3.createdAt) == dayOf(m4.createdAt)
    ensures var day, a, b := dayOf(m1.createdAt), m1.userId, m3.userId;
      GroupMessages([m1, m2, m3, m4], dayOf)
        == [DateGroup(day, [SenderGroup(a, UserName(a), [m1, m2, m4]), SenderGroup(b, UserName(b), [m3])])]
  {
    var day, a, b := dayOf(m1.createdAt), m1.userId, m3.userId;
    var ga := SenderGroup(a, UserName(a), [m1]);
    assert [m1][..0] == [];
    assert GroupMessages([m1], dayOf) == [DateGroup(day, [ga])];
    assert [m1, m2][..1] == [m1];
    assert FindDate([DateGroup(day, [ga])], day) == 0;
    assert FindSender([ga], a) == 0;
    assert [m1] + [m2] == [m1, m2];
    var ga2 := ga.(messages := [m1, m2]);
    assert GroupMessages([m1, m2], dayOf) == Place([DateGroup(day, [ga])], day, m2);
    assert PlaceInDate([ga], m2) == [ga2];
    assert GroupMessages([m1, m2], dayOf) == [DateGroup(day, [ga2])];
    assert [m1, m2, m3][..2] == [m1, m2];
    var gb := SenderGroup(b, UserName(b), [m3]);
    assert FindDate([DateGroup(day, [ga2])], day) == 0;
    assert FindSender([ga2], b) == -1 by {
      assert [ga2][1..] == [];
    }
    assert [ga2] + [gb] == [ga2, gb];
    assert GroupMessages([m1, m2, m3], dayOf) == [DateGroup(day, [ga2, gb])];
    assert [m1, m2, m3, m4][..3] == [m1, m2, m3];
    assert FindDate([DateGroup(day, [ga2, gb])], day) == 0;
    assert FindSender([ga2, gb], a) == 0;
    assert [m1, m2] + [m4] == [m1, m2, m4];
    assert GroupMessages([m1, m2, m3, m4], dayOf) == Place([DateGroup(day, [ga2, gb])], day, m4);
    assert PlaceInDate([ga2, gb], m4) == [ga2.(messages := [m1, m2, m4]), gb];
  }

  // ---------------------------------------------------------------------
  // The message box

  /** What a submit does: the text handed to `onSendMessage`, if any, and
      the input box's new contents. */
  datatype SubmitOutcome = SubmitOutcome(sent: Option<string>, input: string)

  /** `handleSubmit`: sends the input as typed, untrimmed, and clears the
      box, but only when the input is not blank; a blank input is neither
      sent nor cleared. */
  function Submit(input: string): (r: SubmitOutcome)
    ensures r.sent.Some? <==> !IsBlank(input)
    ensures r.sent.Some? ==> r.sent.value == input && r.input == ""
    ensures r.sent.None? ==> r.input == input
  {
    if Trim(input) != "" then SubmitOutcome(Some(input), "") else SubmitOutcome(None, input)
  }
}

=== FILE: chat_page.dfy ===
/** The chat page: sending a message to the active channel, creating a
    channel from the dialog, opening (or reusing) a private chat, and the
    message list shown for the active channel. The signed-in user comes from
    the auth store and is a parameter; ids and times are inputs. */
module ChatPage {
  import opened Types
  import opened Text
  import opened ChatStore
  import ChatArea

  /** The chat store plus the page's own dialog flag. */
  datatype PageState = PageState(chat: ChatState, isNewChannelModalOpen: bool)

  /** The active channel id as the page tests it: null and the empty string
      are both falsy. */
  predicate HasActive(chat: ChatState)
  {
    chat.activeChannelId.Some? && chat.activeChannelId.value != ""
  }

  /** An empty active channel id counts as no active channel: no messages
      are shown and sending does nothing, even when the empty id has an
      entry. */
  lemma EmptyActiveIdIsInactive(chat: ChatState, user: Option<User>, content: string, id: string, now: int)
    requires chat.activeChannelId == Some("")
    ensures !HasActive(chat)
    ensures ActiveMessages(chat) == []
    ensures SendMessage(chat, user, content, id, now) == chat
  {
  }

  /** `activeMessages`: the active channel's messages, or none when no
      channel is active or it has no entry. */
  function ActiveMessages(chat: ChatState): (ms: seq<Message>)
    ensures !HasActive(chat) ==> ms == []
    ensures HasActive(chat) && chat.activeChannelId.value in chat.messages ==> ms == chat.messages[chat.activeChannelId.value]
    ensures HasActive(chat) && chat.activeChannelId.value !in chat.messages ==> ms == []
  {
    if HasActive(chat) then MessagesOf(chat.messages, chat.activeChannelId.value) else []
  }

  /** `handleSendMessage`: with an active channel, non-blank content and a
      signed-in user, the content (untrimmed) is appended to the active
      channel as a message from the user; otherwise nothing happens. */
  function SendMessage(chat: ChatState, user: Option<User>, content: string, id: string, now: int): (r: ChatState)
    ensures !HasActive(chat) || IsBlank(content) || user.None? ==> r == chat
    ensures HasActive(chat) && !IsBlank(content) && user.Some? ==>
      var c := chat.activeChannelId.value;
      && MessagesOf(r.messages, c) == MessagesOf(chat.messages, c) + [Message(id, content, now, now, user.value.id, c)]
      && OnlyEntryChanged(chat.messages, r.messages, c)
      && SameButMessages(chat, r)
  {
    if !HasActive(chat) || Trim(content) == "" || user.None? then chat
    else
      var c := chat.activeChannelId.value;
      var r := AddMessage(chat, c, Message(id, content, now, now, user.value.id, c));
      assert r.messages[c] == MessagesOf(chat.messages, c) + [Message(id, content, now, now, user.value.id, c)];
      r
  }

  /** The message box and the page together: a submitted message reaches
      the active channel exactly when it is not blank, and arrives as
      typed. */
  lemma SubmitThenSend(chat: ChatState, user: User, input: string, id: string, now: int)
    requires HasActive(chat)
    ensures var out := ChatArea.Submit(input);
      var r := if out.sent.Some? then SendMessage(chat, Some(user), out.sent.value, id, now) else chat;
      var c := chat.activeChannelId.value;
      && (IsBlank(input) ==> r == chat)
      && (!IsBlank(input) ==> ActiveMessages(r) == ActiveMessages(chat) + [Message(id, input, now, now, user.id, c)])
  {
  }

  /** `handleCreateChannel`: with a signed-in user, the channel built from
      the dialog's data (fresh id, creation time, the user as creator) is
      appended and made active, and the dialog closes. Without a user,
      nothing happens. */
  function CreateChannel(p: PageState, user: Option<User>, d: ChannelDraft, id: string, now: int): (r: PageState)
    ensures user.None? ==> r == p
    ensures user.Some? ==>
      && r.chat.channels == p.chat.channels + [Channel(id, d.name, d.description, d.channelType, now, user.value.id, d.members)]
      && r.chat.activeChannelId == Some(id)
      && r.chat.messages == p.chat.messages
      && r.chat.isLoading == p.chat.isLoading && r.chat.error == p.chat.error
      && !r.isNewChannelModalOpen
  {
    match user
    case None => p
    case Some(u) =>
      var c := Channel(id, d.name, d.description, d.channelType, now, u.id, d.members);
      PageState(SetActiveChannelId(AddChannel(p.chat, c), Some(id)), false)
  }

  /** A private chat between `me` and `other`: private, with exactly two
      members, both of them listed. */
  predicate IsPrivateChatWith(c: Channel, me: string, other: string)
  {
    c.channelType == Private && me in c.members && other in c.members && |c.members| == 2
  }

  /** The first channel that is a private chat between the two, as an index,
      or -1. */
  function FindPrivateChat(channels: seq<Channel>, me: string, other: string): (i: int)
    ensures -1 <= i < |channels|
    ensures i >= 0 ==> IsPrivateChatWith(channels[i], me, other)
    ensures i >= 0 ==> forall k :: 0 <= k < i ==> !IsPrivateChatWith(channels[k], me, other)
    ensures i < 0 ==> forall k :: 0 <= k < |channels| ==> !IsPrivateChatWith(channels[k], me, other)
  {
    if |channels| == 0 then -1
    else if IsPrivateChatWith(channels[0], me, other) then 0
    else
      var i := FindPrivateChat(channels[1..], me, other);
      if i < 0 then -1 else i + 1
  }

  /** The private channel `handleStartPrivateChat` creates. */
  function NewPrivateChat(me: string, other: string, otherName: string, id: string, now: int): (c: Channel)
    ensures IsPrivateChatWith(c, me, other)
    ensures c.id == id && c.name == otherName && c.createdById == me && c.createdAt == now
  {
    Channel(id, otherName, "Private chat with " + otherName, Private, now, me, [me, other])
  }

  /** `handleStartPrivateChat`: with a signed-in user, an existing private
      chat with the other user is made active and nothing is added;
      otherwise a new private chat named after the other user is appended,
      made active, and given an empty message list. Without a user, nothing
      happens. */
  function StartPrivateChat(chat: ChatState, user: Option<User>, other: string, otherName: string, id: string, now: int): (r: ChatState)
    ensures user.None? ==> r == chat
    ensures user.Some? && FindPrivateChat(chat.channels, user.value.id, other) >= 0 ==>
      var i := FindPrivateChat(chat.channels, user.value.id, other);
      r == chat.(activeChannelId := Some(chat.channels[i].id))
    ensures user.Some? && FindPrivateChat(chat.channels, user.value.id, other) < 0 ==>
      && r.channels == chat.channels + [NewPrivateChat(user.value.id, other, otherName, id, now)]
      && r.activeChannelId == Some(id)
      && r.messages == chat.messages[id := []]
      && r.isLoading == chat.isLoading && r.error == chat.error
  {
    match user
    case None => chat
    case Some(u) =>
      var i := FindPrivateChat(chat.channels, u.id, other);
      if i >= 0 then SetActiveChannelId(chat, Some(chat.channels[i].id))
      else
        var c := NewPrivateChat(u.id, other, otherName, id, now);
        SetMessages(SetActiveChannelId(AddChannel(chat, c), Some(id)), id, [])
  }

  /** Starting a private chat with the same user twice creates one channel:
      the second call finds the first call's channel and only activates
      it. */
  lemma StartPrivateChatReuses(chat: ChatState, user: User, other: string, name: string, id1: string, id2: string, t1: int, t2: int)
    requires FindPrivateChat(chat.channels, user.id, other) < 0
    ensures var r1 := StartPrivateChat(chat, Some(user), other, name, id1, t1);
      var r2 := StartPrivateChat(r1, Some(user), other, name, id2, t2);
      && |r1.channels| == |chat.channels| + 1
      && r2 == r1
  {
    var r1 := StartPrivateChat(chat, Some(user), other, name, id1, t1);
    var n := |chat.channels|;
    assert IsPrivateChatWith(r1.channels[n], user.id, other);
    assert FindPrivateChat(r1.channels, user.id, other) == n;
  }
}

=== FILE: chat_store.dfy ===
/** The chat store: the channel list, the active channel id, and a map
    from channel id to that channel's message sequence (insertion order, not
    re-sorted), plus loading and error flags. */
module ChatStore {
  import opened Types
  import opened Seqs

  datatype ChatState = ChatState(
    channels: seq<Channel>,
    activeChannelId: Option<string>,
    messages: map<string, seq<Message>>,
    isLoading: bool,
    error: Option<string>)

  const Initial := ChatState([], None, map[], false, None)

  /** `messages[channelId] || []`: the channel's sequence, or empty when the
      map has no entry for it. */
  function MessagesOf(messages: map<string, seq<Message>>, channelId: string): seq<Message>
  {
    if channelId in messages then messages[channelId] else []
  }

  /** `after` has an entry for `key`, and every other entry of `before` is
      present in `after` with the same value and no other key was added. */
  ghost predicate OnlyEntryChanged(before: map<string, seq<Message>>, after: map<string, seq<Message>>, key: string)
  {
    && after.Keys == before.Keys + {key}
    && forall k :: k in before && k != key ==> after[k] == before[k]
  }

  /** Everything but the message map is as before. */
  ghost predicate SameButMessages(s: ChatState, r: ChatState)
  {
    r.channels == s.channels && r.activeChannelId == s.activeChannelId
    && r.isLoading == s.isLoading && r.error == s.error
  }

  /** Everything but the channel list and the active channel is as before. */
  ghost predicate SameButChannels(s: ChatState, r: ChatState)
  {
    r.messages == s.messages && r.isLoading == s.isLoading && r.error == s.error
  }

  /** `setChannels`: the channel list is replaced wholesale. */
  function SetChannels(s: ChatState, channels: seq<Channel>): (r: ChatState)
    ensures r.channels == channels
    ensures SameButChannels(s, r) && r.activeChannelId == s.activeChannelId
  {
    s.(channels := channels)
  }

  /** `setActiveChannelId`: only the active channel id changes. */
  function SetActiveChannelId(s: ChatState, channelId: Option<string>): (r: ChatState)
    ensures r.activeChannelId == channelId
    ensures SameButChannels(s, r) && r.channels == s.channels
  {
    s.(activeChannelId := channelId)
  }

  /** `setMessages`: exactly the entry for `channelId` is replaced. */
  function SetMessages(s: ChatState, channelId: string, ms: seq<Message>): (r: ChatState)
    ensures channelId in r.messages && r.messages[channelId] == ms
    ensures OnlyEntryChanged(s.messages, r.messages, channelId)
    ensures SameButMessages(s, r)
  {
    s.(messages := s.messages[channelId := ms])
  }

  /** `addMessage`: the message goes at the end of the channel's sequence,
      which starts out empty when the channel has no entry yet. */
  function AddMessage(s: ChatState, channelId: string, m: Message): (r: ChatState)
    ensures channelId in r.messages
    ensures |r.messages[channelId]| == |MessagesOf(s.messages, channelId)| + 1
    ensures r.messages[channelId][..|MessagesOf(s.messages, channelId)|] == MessagesOf(s.messages, channelId)
    ensures r.messages[channelId][|MessagesOf(s.messages, channelId)|] == m
    ensures OnlyEntryChanged(s.messages, r.messages, channelId)
    ensures SameButMessages(s, r)
  {
    s.(messages := s.messages[channelId := MessagesOf(s.messages, channelId) + [m]])
  }

  /** `updateMessage`: within the channel's sequence (empty if absent) every
      message carrying `messageId` has the patch merged in and the others
      stay in place; the channel's entry exists afterwards. */
  function UpdateMessage(s: ChatState, channelId: string, messageId: string, p: MessagePatch): (r: ChatState)
    ensures channelId in r.messages
    ensures var prev := MessagesOf(s.messages, channelId);
      && |r.messages[channelId]| == |prev|
      && (forall i :: 0 <= i < |prev| && prev[i].id == messageId ==> r.messages[channelId][i] == p.ApplyTo(prev[i]))
      && (forall i :: 0 <= i < |prev| && prev[i].id != messageId ==> r.messages[channelId][i] == prev[i])
    ensures OnlyEntryChanged(s.messages, r.messages, channelId)
    ensures SameButMessages(s, r)
  {
    var updated := UpdateWhere(MessagesOf(s.messages, channelId),
                               (m: Message) => m.id == messageId, (m: Message) => p.ApplyTo(m));
    s.(messages := s.messages[channelId := updated])
  }

  /** `deleteMessage`: within the channel's sequence (empty if absent) every
      message carrying `messageId` is removed and the rest keep their order;
      the channel's entry exists afterwards. */
  function DeleteMessage(s: ChatState, channelId: string, messageId: string): (r: ChatState)
    ensures channelId in r.messages
    ensures forall i :: 0 <= i < |r.messages[channelId]| ==> r.messages[channelId][i].id != messageId
    ensures var prev := MessagesOf(s.messages, channelId);
      && IsSubsequence(r.messages[channelId], prev)
      && |r.messages[channelId]| == Count(prev, MessageOtherThan(messageId))
      && forall i :: 0 <= i < |prev| && prev[i].id != messageId ==> prev[i] in r.messages[channelId]
    ensures OnlyEntryChanged(s.messages, r.messages, channelId)
    ensures SameButMessages(s, r)
  {
    s.(messages := s.messages[channelId := WithoutMessage(MessagesOf(s.messages, channelId), messageId)])
  }

  /** The messages of `ms` that do not carry `messageId`, in order. */
  function WithoutMessage(ms: seq<Message>, messageId: string): seq<Message>
  {
    Filter(ms, MessageOtherThan(messageId))
  }

  /** Keeps the messages whose id is not `messageId`. */
  function MessageOtherThan(messageId: string): Message -> bool
  {
    (m: Message) => m.id != messageId
  }

  /** Keeps the channels whose id is not `channelId`. */
  function ChannelOtherThan(channelId: string): Channel -> bool
  {
    (c: Channel) => c.id != channelId
  }

  /** `addChannel`: appends to the channel list. */
  function AddChannel(s: ChatState, c: Channel): (r: ChatState)
    ensures r.channels == s.channels + [c]
    ensures SameButChannels(s, r) && r.activeChannelId == s.activeChannelId
  {
    s.(channels := s.channels + [c])
  }

  /** `updateChannel`: merges the patch into every channel carrying the id
      and leaves the others in place. */
  function UpdateChannel(s: ChatState, channelId: string, p: ChannelPatch): (r: ChatState)
    ensures |r.channels| == |s.channels|
    ensures forall i :: 0 <= i < |s.channels| && s.channels[i].id == channelId ==> r.channels[i] == p.ApplyTo(s.channels[i])
    ensures forall i :: 0 <= i < |s.channels| && s.channels[i].id != channelId ==> r.channels[i] == s.channels[i]
    ensures SameButChannels(s, r) && r.activeChannelId == s.activeChannelId
  {
    s.(channels := UpdateWhere(s.channels, (c: Channel) => c.id == channelId, (c: Channel) => p.ApplyTo(c)))
  }

  /** `deleteChannel`: drops every channel carrying the id, keeping the order
      of the rest; the active channel id is cleared only if it named the
      deleted channel; the message map is not touched, so the deleted
      channel's messages stay behind. */
  function DeleteChannel(s: ChatState, channelId: string): (r: ChatState)
    ensures forall i :: 0 <= i < |r.channels| ==> r.channels[i].id != channelId
    ensures forall i :: 0 <= i < |s.channels| && s.channels[i].id != channelId ==> s.channels[i] in r.channels
    ensures IsSubsequence(r.channels, s.channels)
    ensures |r.channels| == Count(s.channels, ChannelOtherThan(channelId))
    ensures r.activeChannelId == (if s.activeChannelId == Some(channelId) then None else s.activeChannelId)
    ensures SameButChannels(s, r)
  {
    s.(channels := Filter(s.channels, ChannelOtherThan(channelId)),
       activeChannelId := if s.activeChannelId == Some(channelId) then None else s.activeChannelId)
  }

  /** `setLoading`. */
  function SetLoading(s: ChatState, isLoading: bool): (r: ChatState)
    ensures r.isLoading == isLoading
    ensures r.channels == s.channels && r.activeChannelId == s.activeChannelId
    ensures r.messages == s.messages && r.error == s.error
  {
    s.(isLoading := isLoading)
  }

  /** `setError`. */
  function SetError(s: ChatState, error: Option<string>): (r: ChatState)
    ensures r.error == error
    ensures r.channels == s.channels && r.activeChannelId == s.activeChannelId
    ensures r.messages == s.messages && r.isLoading == s.isLoading
  {
    s.(error := error)
  }

  /** Two messages added to a channel that has no entry yet end up in the
      order they were added. */
  lemma AddTwiceAppendsInOrder(s: ChatState, channelId: string, m1: Message, m2: Message)
    requires channelId !in s.messages
    ensures AddMessage(AddMessage(s, channelId, m1), channelId, m2).messages[channelId] == [m1, m2]
  {
  }

  /** Updating or deleting in a channel that has no entry creates an empty
      entry for it. */
  lemma MissingChannelGetsEmptyEntry(s: ChatState, channelId: string, messageId: string, p: MessagePatch)
    requires channelId !in s.messages
    ensures UpdateMessage(s, channelId, messageId, p).messages[channelId] == []
    ensures DeleteMessage(s, channelId, messageId).messages[channelId] == []
  {
  }

  /** Deleting a message that was just appended under a fresh id restores
      the channel's previous entry. */
  lemma DeleteUndoesAddMessage(s: ChatState, channelId: string, m: Message)
    requires channelId in s.messages
    requires forall i :: 0 <= i < |s.messages[channelId]| ==> s.messages[channelId][i].id != m.id
    ensures DeleteMessage(AddMessage(s, channelId, m), channelId, m.id) == s
  {
    var prev := s.messages[channelId];
    FreshAppendFilteredOut(prev, m);
    assert MessagesOf(AddMessage(s, channelId, m).messages, channelId) == prev + [m];
    assert s.messages[channelId := prev] == s.messages;
  }

  lemma FreshAppendFilteredOut(prev: seq<Message>, m: Message)
    requires forall i :: 0 <= i < |prev| ==> prev[i].id != m.id
    ensures WithoutMessage(prev + [m], m.id) == prev
  {
    FilterSnoc(prev, m, MessageOtherThan(m.id));
    FilterKeepsAll(prev, MessageOtherThan(m.id));
  }

  /** Deleting a channel leaves its message entry behind. */
  lemma DeleteChannelOrphansMessages(s: ChatState, channelId: string)
    requires channelId in s.messages
    ensures var r := DeleteChannel(s, channelId);
      && channelId in r.messages && r.messages[channelId] == s.messages[channelId]
      && forall i :: 0 <= i < |r.channels| ==> r.channels[i].id != channelId
  {
  }
}

=== FILE: dashboard_page.dfy ===
/** The dashboard: on mount it writes demonstration tasks and events to the
    stores and derives from the same arrays the priority tasks, the events
    of the next 24 hours and three counts. Timestamps are milliseconds. */
module DashboardPage {
  import opened Types
  import opened Seqs
  import TaskStore
  import EventStore

  const Day := 24 * 60 * 60 * 1000

  datatype Stats = Stats(completedTasks: nat, pendingTasks: nat, upcomingEvents: nat)

  datatype DashboardView = DashboardView(upcomingEvents: seq<Event>, priorityTasks: seq<Task>, stats: Stats)

  /** The priority filter: high or urgent. */
  function IsPriority(): Task -> bool
  {
    (t: Task) => t.priority == High || t.priority == Urgent
  }

  function IsDone(): Task -> bool
  {
    (t: Task) => t.status == Done
  }

  function IsPending(): Task -> bool
  {
    (t: Task) => t.status != Done
  }

  function AnyTask(): Task -> bool
  {
    (t: Task) => true
  }

  /** Starts within `[now, now + 24h]`, both ends included. */
  function InNextDay(now: int): Event -> bool
  {
    (e: Event) => now <= e.startTime <= now + Day
  }

  /** Starts at or after `now`, with no upper bound. */
  function NotStarted(now: int): Event -> bool
  {
    (e: Event) => e.startTime >= now
  }

  /** The high- and urgent-priority tasks, in order. */
  function PriorityTasks(tasks: seq<Task>): (r: seq<Task>)
    ensures forall x :: x in r <==> x in tasks && (x.priority == High || x.priority == Urgent)
    ensures IsSubsequence(r, tasks)
    ensures |r| == Count(tasks, IsPriority())
  {
    Filter(tasks, IsPriority())
  }

  /** The events starting within the next 24 hours, in order. */
  function UpcomingEvents(events: seq<Event>, now: int): (r: seq<Event>)
    ensures forall x :: x in r <==> x in events && now <= x.startTime <= now + Day
    ensures IsSubsequence(r, events)
    ensures |r| == Count(events, InNextDay(now))
  {
    Filter(events, InNextDay(now))
  }

  /** The three counts. Every task is either completed or pending; the
      upcoming count counts every event not yet started, with no 24-hour
      bound, so it is at least the length of the upcoming list. */
  function ComputeStats(tasks: seq<Task>, events: seq<Event>, now: int): (s: Stats)
    ensures s.completedTasks + s.pendingTasks == |tasks|
    ensures s.completedTasks == Count(tasks, IsDone())
    ensures s.pendingTasks == Count(tasks, IsPending())
    ensures s.upcomingEvents == Count(events, NotStarted(now))
    ensures s.upcomingEvents >= |UpcomingEvents(events, now)|
  {
    CountDisjointSum(tasks, IsDone(), IsPending(), AnyTask());
    CountMonotone(events, InNextDay(now), NotStarted(now));
    Stats(|Filter(tasks, IsDone())|, |Filter(tasks, IsPending())|, |Filter(events, NotStarted(now))|)
  }

  // ---------------------------------------------------------------------
  // The mount effect

  /** The three demonstration tasks, dated from `t0` (the time they are
      built). */
  function MockTasks(t0: int): seq<Task>
  {
    [ Task("1", "Complete project proposal", "Finalize the proposal document for the new client project",
           InProgress, High, t0 + Day, t0, t0, "user123", "user123", ["proposal", "client"]),
      Task("2", "Review code for PR #42", "Review and provide feedback on the authentication feature",
           Todo, Medium, t0 + 2 * Day, t0, t0, "user123", "user456", ["code-review", "auth"]),
      Task("3", "Prepare for client meeting", "Create presentation slides for the next client meeting",
           Todo, Urgent, t0 + Day, t0, t0, "user123", "user123", ["client", "presentation"]) ]
  }

  /** The two demonstration events: one an hour from `t0`, one a day from
      `t0`. */
  function MockEvents(t0: int): seq<Event>
  {
    [ Event("1", "Team Standup", "Daily team standup meeting", Some("Conference Room A"),
            t0 + 3600000, t0 + 5400000, t0, t0, "user123", ["user123", "user456", "user789"],
            Some(false), None, None, Some("#4CAF50")),
      Event("2", "Client Call: XYZ Corp", "Discuss project requirements and timeline", Some("Zoom"),
            t0 + Day, t0 + 90000000, t0, t0, "user123", ["user123", "user456"],
            Some(false), None, None, Some("#FFA000")) ]
  }

  /** The mount effect: the demonstration arrays replace the store
      contents, and the view is derived from those same arrays, with `now`
      read after they were built (`t0 <= now`). */
  function Mount(ts: TaskStore.TaskState, es: EventStore.EventState, t0: int, now: int):
    (r: (TaskStore.TaskState, EventStore.EventState, DashboardView))
    ensures r.0.tasks == MockTasks(t0) && r.1.events == MockEvents(t0)
    ensures r.2.priorityTasks == PriorityTasks(r.0.tasks)
    ensures r.2.upcomingEvents == UpcomingEvents(r.1.events, now)
    ensures r.2.stats == ComputeStats(r.0.tasks, r.1.events, now)
  {
    var tasks, events := MockTasks(t0), MockEvents(t0);
    (TaskStore.SetTasks(ts, tasks), EventStore.SetEvents(es, events),
     DashboardView(UpcomingEvents(events, now), PriorityTasks(tasks), ComputeStats(tasks, events, now)))
  }

  /** With less than an hour between building the data and reading the
      clock, both events are upcoming (the second starts exactly at the
      24-hour bound, which is included), tasks 1 and 3 are the priority
      tasks, and the counts are 0 completed, 3 pending, 2 upcoming. */
  lemma MountView(ts: TaskStore.TaskState, es: EventStore.EventState, t0: int, now: int)
    requires t0 <= now < t0 + 3600000
    ensures var v := Mount(ts, es, t0, now).2;
      && v.upcomingEvents == MockEvents(t0)
      && v.priorityTasks == [MockTasks(t0)[0], MockTasks(t0)[2]]
      && v.stats == Stats(0, 3, 2)
  {
    var tasks, events := MockTasks(t0), MockEvents(t0);
    FilterKeepsAll(events, InNextDay(now));
    FilterKeepsAll(events, NotStarted(now));
    FilterKeepsAll(tasks, IsPending());
    assert Count(tasks, IsDone()) == 0;
    MockPriorityTasks(t0);
  }

  lemma MockPriorityTasks(t0: int)
    ensures PriorityTasks(MockTasks(t0)) == [MockTasks(t0)[0], MockTasks(t0)[2]]
  {
    var tasks := MockTasks(t0);
    var a, b, c := tasks[0], tasks[1], tasks[2];
    assert tasks[1..] == [b, c] && [b, c][1..] == [c] && [c][1..] == [];
    assert Filter([c], IsPriority()) == [c];
    assert Filter([b, c], IsPriority()) == [c];
    assert Filter(tasks, IsPriority()) == [a] + [c];
  }
}

=== FILE: event_store.dfy ===
/** The calendar-event store: the event list plus loading and error flags,
    with whole-list replacement, append, merge-by-id and delete-by-id. */
module EventStore {
  import opened Types
  import opened Seqs

  datatype EventState = EventState(events: seq<Event>, isLoading: bool, error: Option<string>)

  const Initial := EventState([], false, None)

  /** Some event in `events` carries `id`. */
  predicate HasEvent(events: seq<Event>, id: string)
  {
    exists i :: 0 <= i < |events| && events[i].id == id
  }

  /** `setEvents`: the list is replaced wholesale. */
  function SetEvents(s: EventState, events: seq<Event>): (r: EventState)
    ensures r.events == events
    ensures r.isLoading == s.isLoading && r.error == s.error
  {
    s.(events := events)
  }

  /** `addEvent`: appends at the end without looking for an id collision. */
  function AddEvent(s: EventState, e: Event): (r: EventState)
    ensures |r.events| == |s.events| + 1
    ensures r.events[..|s.events|] == s.events && r.events[|s.events|] == e
    ensures r.isLoading == s.isLoading && r.error == s.error
  {
    s.(events := s.events + [e])
  }

  /** `updateEvent`: every event carrying `id` has the patch merged in; every
      other event is left as it was, in place. */
  function UpdateEvent(s: EventState, id: string, p: EventPatch): (r: EventState)
    ensures |r.events| == |s.events|
    ensures forall i :: 0 <= i < |s.events| && s.events[i].id == id ==> r.events[i] == p.ApplyTo(s.events[i])
    ensures forall i :: 0 <= i < |s.events| && s.events[i].id != id ==> r.events[i] == s.events[i]
    ensures r.isLoading == s.isLoading && r.error == s.error
  {
    s.(events := UpdateWhere(s.events, (e: Event) => e.id == id, (e: Event) => p.ApplyTo(e)))
  }

  /** `deleteEvent`: removes every event carrying `id` and keeps the rest in
      their original order. */
  function DeleteEvent(s: EventState, id: string): (r: EventState)
    ensures forall i :: 0 <= i < |r.events| ==> r.events[i].id != id
    ensures forall i :: 0 <= i < |s.events| && s.events[i].id != id ==> s.events[i] in r.events
    ensures IsSubsequence(r.events, s.events)
    ensures |r.events| == Count(s.events, OtherThan(id))
    ensures r.isLoading == s.isLoading && r.error == s.error
  {
    s.(events := Filter(s.events, OtherThan(id)))
  }

  /** Keeps the events whose id is not `id`. */
  function OtherThan(id: string): Event -> bool
  {
    (e: Event) => e.id != id
  }

  /** `setLoading`: only the loading flag changes. */
  function SetLoading(s: EventState, isLoading: bool): (r: EventState)
    ensures r.isLoading == isLoading
    ensures r.events == s.events && r.error == s.error
  {
    s.(isLoading := isLoading)
  }

  /** `setError`: only the error changes. */
  function SetError(s: EventState, error: Option<string>): (r: EventState)
    ensures r.error == error
    ensures r.events == s.events && r.isLoading == s.isLoading
  {
    s.(error := error)
  }

  /** Updating an id that no event carries changes nothing. */
  lemma UpdateAbsentIsNoop(s: EventState, id: string, p: EventPatch)
    requires !HasEvent(s.events, id)
    ensures UpdateEvent(s, id, p) == s
  {
    UpdateWhereNoMatch(s.events, (e: Event) => e.id == id, (e: Event) => p.ApplyTo(e));
  }

  /** Deleting an id that no event carries changes nothing. */
  lemma DeleteAbsentIsNoop(s: EventState, id: string)
    requires !HasEvent(s.events, id)
    ensures DeleteEvent(s, id) == s
  {
    FilterKeepsAll(s.events, OtherThan(id));
  }

  /** Deleting the id of an event just added under a fresh id restores the
      previous state. */
  lemma DeleteUndoesAdd(s: EventState, e: Event)
    requires !HasEvent(s.events, e.id)
    ensures DeleteEvent(AddEvent(s, e), e.id) == s
  {
    FilterSnoc(s.events, e, OtherThan(e.id));
    FilterKeepsAll(s.events, OtherThan(e.id));
  }

  /** Adding under an id that is already present keeps both events: the store
      does not deduplicate. */
  lemma AddKeepsDuplicates(s: EventState, e: Event)
    requires HasEvent(s.events, e.id)
    ensures Count(AddEvent(s, e).events, (x: Event) => x.id == e.id) >= 2
  {
    var r := AddEvent(s, e).events;
    var i :| 0 <= i < |s.events| && s.events[i].id == e.id;
    CountTwo(r, (x: Event) => x.id == e.id, i, |s.events|);
  }
}

=== FILE: login_form.dfy ===
/** The login form's mock credential check. The delayed completion that
    stores the user is a separate step; navigation is not modelled. */
module LoginForm {
  import opened Types
  import AuthStore

  datatype LoginState = LoginState(email: string, password: string, isLoading: bool, error: Option<string>)

  const DemoEmail := "demo@example.com"
  const DemoPassword := "password"

  /** The user the demo login signs in: "user123", an administrator with
      the demo email, created and last active at the login time. */
  function DemoUser(now: int): (u: User)
    ensures u.id == "user123" && u.role == Admin && u.email == DemoEmail
    ensures u.createdAt == now && u.lastActive == now
  {
    User("user123", "Demo User", DemoEmail, "https://via.placeholder.com/150", Admin, now, now)
  }

  /** `fillDemoCredentials`: fills in exactly the accepted pair. */
  function FillDemo(s: LoginState): (r: LoginState)
    ensures r.email == DemoEmail && r.password == DemoPassword
    ensures r.isLoading == s.isLoading && r.error == s.error
  {
    s.(email := DemoEmail, password := DemoPassword)
  }

  /** `handleLogin`: loading starts and the error is cleared; the demo pair,
      compared exactly, schedules the demo user to be stored; anything else
      reports an error and stops loading. */
  function Attempt(s: LoginState, now: int): (r: (LoginState, Option<User>))
    ensures r.0.email == s.email && r.0.password == s.password
    ensures r.1.Some? <==> s.email == DemoEmail && s.password == DemoPassword
    ensures r.1.Some? ==> r.1.value == DemoUser(now) && r.0.isLoading && r.0.error.None?
    ensures r.1.None? ==> !r.0.isLoading && r.0.error == Some("Invalid email or password")
  {
    var started := s.(isLoading := true, error := None);
    if s.email == DemoEmail && s.password == DemoPassword then (started, Some(DemoUser(now)))
    else (started.(error := Some("Invalid email or password"), isLoading := false), None)
  }

  /** The delayed completion: the pending user is stored and loading
      stops. */
  function Complete(s: LoginState, auth: AuthStore.AuthState, pending: User): (r: (LoginState, AuthStore.AuthState))
    ensures !r.0.isLoading && r.0.error == s.error
    ensures r.1.user == Some(pending)
    ensures r.1.isLoading == auth.isLoading && r.1.error == auth.error
  {
    (s.(isLoading := false), AuthStore.SetUser(auth, Some(pending)))
  }

  /** Filling in the demo credentials and logging in signs in the admin
      demo user once the completion runs. */
  lemma DemoLoginSignsIn(s: LoginState, auth: AuthStore.AuthState, now: int)
    ensures var (s1, pending) := Attempt(FillDemo(s), now);
      && pending.Some?
      && var (s2, auth2) := Complete(s1, auth, pending.value);
      && auth2.user == Some(DemoUser(now))
      && auth2.user.value.id == "user123" && auth2.user.value.role == Admin
      && !s2.isLoading && s2.error.None?
  {
  }

  /** The check is exact: a differently cased or padded email is refused. */
  lemma NoNormalisation(s: LoginState, now: int)
    requires s.email == "Demo@example.com" || s.email == " demo@example.com"
    ensures Attempt(s, now).1.None?
  {
    assert s.email[0] != DemoEmail[0] || s.email != DemoEmail;
  }
}

=== FILE: new_channel_modal.dfy ===
/** The new-channel dialog: its fields, the blank-name check and the channel
    data it hands to the page. */
module NewChannelModal {
  import opened Types
  import opened Text

  datatype ModalState = ModalState(name: string, description: string, channelType: ChannelType, error: string)

  /** The dialog opens empty, public and without an error. */
  const Initial := ModalState("", "", Public, "")

  /** The member list every new channel gets: the current user's id, fixed
      in the dialog. */
  const CreatorMembers := ["user123"]

  /** Editing the name also clears the error. */
  function ChangeName(m: ModalState, value: string): (r: ModalState)
    ensures r.name == value && r.error == ""
    ensures r.description == m.description && r.channelType == m.channelType
  {
    m.(name := value, error := "")
  }

  /** `handleSubmit`: a blank name sets the error and submits nothing;
      otherwise the trimmed name and description, the selected type and
      the fixed member list are submitted and the dialog state is kept. */
  function Submit(m: ModalState): (r: (ModalState, Option<ChannelDraft>))
    ensures IsBlank(m.name) ==> r.0 == m.(error := "Channel name is required") && r.1.None?
    ensures !IsBlank(m.name) ==> r.0 == m && r.1.Some?
    ensures r.1.Some? ==> var d := r.1.value;
      && d.name == Trim(m.name) && d.name != ""
      && d.description == Trim(m.description)
      && d.channelType == m.channelType
      && d.members == CreatorMembers
  {
    if Trim(m.name) == "" then (m.(error := "Channel name is required"), None)
    else (m, Some(ChannelDraft(Trim(m.name), Trim(m.description), m.channelType, CreatorMembers)))
  }

  /** Whatever the name was padded with, the submitted name is unpadded. */
  lemma SubmittedNameIsTrimmed(m: ModalState)
    requires !IsBlank(m.name)
    ensures var d := Submit(m).1.value; Trim(d.name) == d.name
    ensures Submit(ChangeName(m, Trim(m.name))).1 == Submit(m).1
  {
    TrimIdempotent(m.name);
  }
}

=== FILE: notification_settings.dfy ===
/** The notification preferences: ten on/off flags and the toggle. */
module NotificationSettings {

  /** The names of the flags (`keyof typeof settings`). */
  datatype Key =
    | EmailNotifications | PushNotifications | TaskReminders | TaskAssigned | TaskUpdated
    | TaskCompleted | MessageReceived | EventReminders | SystemUpdates | MarketingEmails

  /** The ten flags, one per key (the source's `settings` object). */
  type Settings = map<Key, bool>

  /** Every key has a flag, as the object literal guarantees. */
  predicate Total(s: Settings)
  {
    forall k: Key :: k in s
  }

  /** The settings the panel starts with: everything on except completed
      tasks, system updates and marketing email. */
  const Initial: Settings := map[
    EmailNotifications := true, PushNotifications := true, TaskReminders := true,
    TaskAssigned := true, TaskUpdated := true, TaskCompleted := false,
    MessageReceived := true, EventReminders := true, SystemUpdates := false,
    MarketingEmails := false]

  lemma InitialFlags()
    ensures Total(Initial)
    ensures forall k: Key :: Initial[k] <==> k != TaskCompleted && k != SystemUpdates && k != MarketingEmails
  {
    forall k: Key
      ensures k in Initial && (Initial[k] <==> k != TaskCompleted && k != SystemUpdates && k != MarketingEmails)
    {
      match k
      case EmailNotifications =>
      case PushNotifications =>
      case TaskReminders =>
      case TaskAssigned =>
      case TaskUpdated =>
      case TaskCompleted =>
      case MessageReceived =>
      case EventReminders =>
      case SystemUpdates =>
      case MarketingEmails =>
    }
  }

  /** `handleToggle`: negates the named flag and keeps every other one. */
  function Toggle(s: Settings, k: Key): (r: Settings)
    requires Total(s)
    ensures Total(r)
    ensures r[k] == !s[k]
    ensures forall j: Key :: j != k ==> r[j] == s[j]
  {
    s[k := !s[k]]
  }

  /** Toggling a flag twice restores the settings, and toggles of two
      different flags commute. */
  lemma ToggleTwice(s: Settings, k: Key, j: Key)
    requires Total(s)
    ensures Toggle(Toggle(s, k), k) == s
    ensures Toggle(Toggle(s, k), j) == Toggle(Toggle(s, j), k)
  {
  }
}

=== FILE: profile_settings.dfy ===
/** The profile panel: the form initialised from the signed-in user, field
    edits, and the delayed save that merges three fields into the stored
    user. */
module ProfileSettings {
  import opened Types
  import opened AuthStore

  datatype ProfileForm = ProfileForm(
    displayName: string,
    email: string,
    photoURL: string,
    bio: string,
    phone: string,
    location: string)

  datatype Field = DisplayName | Email | PhotoURL | Bio | Phone | Location

  datatype ProfileState = ProfileState(form: ProfileForm, isEditing: bool, isSaving: bool)

  const DefaultBio := "Product Manager with 5+ years of experience in SaaS products."
  const DefaultPhone := "+1 (555) 123-4567"
  const DefaultLocation := "San Francisco, CA"

  /** The panel as it opens: the user's name, email and photo (empty
      without a user) and fixed placeholder bio, phone and location. */
  function Init(user: Option<User>): (s: ProfileState)
    ensures s.form.displayName == (if user.Some? then user.value.displayName else "")
    ensures s.form.email == (if user.Some? then user.value.email else "")
    ensures s.form.photoURL == (if user.Some? then user.value.photoURL else "")
    ensures s.form.bio == DefaultBio && s.form.phone == DefaultPhone && s.form.location == DefaultLocation
    ensures !s.isEditing && !s.isSaving
  {
    var f := match user
      case Some(u) => ProfileForm(u.displayName, u.email, u.photoURL, DefaultBio, DefaultPhone, DefaultLocation)
      case None => ProfileForm("", "", "", DefaultBio, DefaultPhone, DefaultLocation);
    ProfileState(f, false, false)
  }

  function Get(f: ProfileForm, k: Field): string
  {
    match k
    case DisplayName => f.displayName
    case Email => f.email
    case PhotoURL => f.photoURL
    case Bio => f.bio
    case Phone => f.phone
    case Location => f.location
  }

  /** `handleChange`: the named field takes the value, the others stay. */
  function Change(f: ProfileForm, k: Field, value: string): (r: ProfileForm)
    ensures Get(r, k) == value
    ensures forall j :: j != k ==> Get(r, j) == Get(f, j)
  {
    match k
    case DisplayName => f.(displayName := value)
    case Email => f.(email := value)
    case PhotoURL => f.(photoURL := value)
    case Bio => f.(bio := value)
    case Phone => f.(phone := value)
    case Location => f.(location := value)
  }

  /** `handleSubmit`: saving starts; the store is written by `Complete`. */
  function Submit(s: ProfileState): (r: ProfileState)
    ensures r.isSaving && r.form == s.form && r.isEditing == s.isEditing
  {
    s.(isSaving := true)
  }

  /** The delayed save. The timeout closure captured, at submit time, both
      the user (`captured`) and the form (`submitted`); the inputs stay
      enabled while saving, so the live form `s.form` may have moved on.
      If there was a captured user, the store's user (if still present)
      becomes that user with the submitted name, email and photo; bio,
      phone and location are never stored. The live form is kept and both
      flags end false. */
  function Complete(s: ProfileState, auth: AuthState, captured: Option<User>, submitted: ProfileForm): (r: (ProfileState, AuthState))
    ensures !r.0.isSaving && !r.0.isEditing && r.0.form == s.form
    ensures captured.None? ==> r.1 == auth
    ensures captured.Some? && auth.user.Some? ==>
      r.1.user == Some(captured.value.(displayName := submitted.displayName, email := submitted.email, photoURL := submitted.photoURL))
    ensures auth.user.None? ==> r.1.user.None?
    ensures r.1.isLoading == auth.isLoading && r.1.error == auth.error
  {
    var auth' := match captured
      case Some(u) => UpdateUser(auth, FullUserPatch(u.(displayName := submitted.displayName, email := submitted.email, photoURL := submitted.photoURL)))
      case None => auth;
    (s.(isSaving := false, isEditing := false), auth')
  }

  /** When the stored user is the one the form was opened for, saving
      changes exactly its name, email and photo, to the submitted ones. */
  lemma SaveChangesOnlyThreeFields(s: ProfileState, auth: AuthState, submitted: ProfileForm)
    requires auth.user.Some?
    ensures var u, v := auth.user.value, Complete(s, auth, auth.user, submitted).1.user.value;
      && v.displayName == submitted.displayName && v.email == submitted.email && v.photoURL == submitted.photoURL
      && v.id == u.id && v.role == u.role && v.createdAt == u.createdAt && v.lastActive == u.lastActive
  {
  }

  /** Opening the panel and saving without edits leaves the stored user as
      it was. */
  lemma SaveUnchangedIsNoop(auth: AuthState)
    requires auth.user.Some?
    ensures var s := Submit(Init(auth.user));
      Complete(s, auth, auth.user, s.form).1 == auth
  {
  }

  /** An edit typed while the save is pending is not stored: the store gets
      the submitted name and the form keeps showing the new one. */
  lemma EditDuringSaveNotStored(s: ProfileState, auth: AuthState, name: string)
    requires auth.user.Some?
    ensures var submitted := Submit(s);
      var edited := submitted.(form := Change(submitted.form, DisplayName, name));
      var r := Complete(edited, auth, auth.user, submitted.form);
      && r.1.user.value.displayName == s.form.displayName
      && r.0.form.displayName == name
  {
  }
}

=== FILE: security_settings.dfy ===
/** The password-change panel of the security settings: the ordered checks
    of an attempt and the delayed completion step. */
module SecuritySettings {
  import opened Types

  datatype SecurityState = SecurityState(
    currentPassword: string,
    newPassword: string,
    confirmPassword: string,
    error: string,
    success: string,
    isChangingPassword: bool)

  const Initial := SecurityState("", "", "", "", "", false)

  const MinPasswordLength := 8

  /** The first check that fails, in the order the handler runs them. */
  function PasswordError(s: SecurityState): (e: Option<string>)
    ensures e == Some("Current password is required") <==> s.currentPassword == ""
    ensures e == Some("New password is required") <==> s.currentPassword != "" && s.newPassword == ""
    ensures e == Some("Password must be at least 8 characters long") <==>
      s.currentPassword != "" && s.newPassword != "" && |s.newPassword| < MinPasswordLength
    ensures e == Some("Passwords do not match") <==>
      s.currentPassword != "" && |s.newPassword| >= MinPasswordLength && s.newPassword != s.confirmPassword
    ensures e == None <==>
      s.currentPassword != "" && |s.newPassword| >= MinPasswordLength && s.newPassword == s.confirmPassword
  {
    if s.currentPassword == "" then Some("Current password is required")
    else if s.newPassword == "" then Some("New password is required")
    else if |s.newPassword| < MinPasswordLength then Some("Password must be at least 8 characters long")
    else if s.newPassword != s.confirmPassword then Some("Passwords do not match")
    else None
  }

  /** `handlePasswordChange`: clears both messages, then either reports the
      first failing check (and changes nothing else) or starts the change. */
  function Attempt(s: SecurityState): (r: SecurityState)
    ensures r.success == ""
    ensures r.currentPassword == s.currentPassword && r.newPassword == s.newPassword
    ensures r.confirmPassword == s.confirmPassword
    ensures PasswordError(s).Some? ==> r.error == PasswordError(s).value && r.isChangingPassword == s.isChangingPassword
    ensures PasswordError(s).None? ==> r.error == "" && r.isChangingPassword
  {
    var cleared := s.(error := "", success := "");
    match PasswordError(s)
    case Some(msg) => cleared.(error := msg)
    case None => cleared.(isChangingPassword := true)
  }

  /** The completion step that runs after the simulated delay. */
  function Complete(s: SecurityState): (r: SecurityState)
    ensures !r.isChangingPassword
    ensures r.success == "Password updated successfully"
    ensures r.currentPassword == "" && r.newPassword == "" && r.confirmPassword == ""
    ensures r.error == s.error
  {
    s.(isChangingPassword := false, success := "Password updated successfully",
       currentPassword := "", newPassword := "", confirmPassword := "")
  }

  /** A short new password that also does not match its confirmation is
      reported as too short: the length check comes first. */
  lemma ShortBeatsMismatch(s: SecurityState)
    requires s.currentPassword != "" && s.newPassword != "" && |s.newPassword| < MinPasswordLength
    requires s.newPassword != s.confirmPassword
    ensures Attempt(s).error == "Password must be at least 8 characters long"
  {
  }

  /** The current password is only checked for presence: any two non-empty
      values lead to the same outcome. */
  lemma CurrentPasswordNotCompared(s: SecurityState, other: string)
    requires s.currentPassword != "" && other != ""
    ensures Attempt(s.(currentPassword := other)) == Attempt(s).(currentPassword := other)
  {
  }

  /** A successful attempt followed by its completion leaves the form empty
      with only the success message showing. */
  lemma SuccessfulChange(s: SecurityState)
    requires PasswordError(s).None?
    ensures Complete(Attempt(s)) == SecurityState("", "", "", "", "Password updated successfully", false)
  {
  }
}

=== FILE: seqs.dfy ===
/** Sequence operations shared by the stores and the derived views: the
    `Array.prototype.filter` and `Array.prototype.map` shapes the source
    uses everywhere, and the subsequence relation their results stand in. */
module Seqs {

  /** Number of elements of `s` that satisfy `p`. */
  function Count<T>(s: seq<T>, p: T -> bool): (n: nat)
    ensures n <= |s|
    ensures n == 0 <==> forall i :: 0 <= i < |s| ==> !p(s[i])
    ensures n == |s| <==> forall i :: 0 <= i < |s| ==> p(s[i])
  {
    if |s| == 0 then 0
    else
      assert forall i :: 1 <= i < |s| ==> s[i] == s[1..][i - 1];
      (if p(s[0]) then 1 else 0) + Count(s[1..], p)
  }

  /** `r` can be obtained from `s` by deleting elements: nothing is invented
      and the relative order of what is kept is unchanged. */
  ghost predicate IsSubsequence<T>(r: seq<T>, s: seq<T>)
    decreases |s|
  {
    if |r| == 0 then true
    else if |s| == 0 then false
    else if r[0] == s[0] then IsSubsequence(r[1..], s[1..])
    else IsSubsequence(r, s[1..])
  }

  /** Every element of a subsequence comes from the original sequence. */
  lemma {:induction false} SubsequenceElements<T>(r: seq<T>, s: seq<T>)
    requires IsSubsequence(r, s)
    ensures forall x :: x in r ==> x in s
    ensures |r| <= |s|
    decreases |s|
  {
    if |r| == 0 {
    } else if r[0] == s[0] {
      SubsequenceElements(r[1..], s[1..]);
      assert forall x :: x in r ==> x == r[0] || x in r[1..];
    } else {
      SubsequenceElements(r, s[1..]);
    }
  }

  /** A sequence is a subsequence of itself. */
  lemma {:induction false} SubsequenceReflexive<T>(s: seq<T>)
    ensures IsSubsequence(s, s)
    decreases |s|
  {
    if |s| > 0 {
      SubsequenceReflexive(s[1..]);
    }
  }

  /** Dropping the first element of a subsequence keeps it a subsequence. */
  lemma {:induction false} SubsequenceDropFirst<T>(r: seq<T>, s: seq<T>)
    requires |r| > 0 && IsSubsequence(r, s)
    ensures IsSubsequence(r[1..], s)
    decreases |s|, 1
  {
    if r[0] == s[0] {
      SubsequenceExtend(r[1..], s);
    } else {
      SubsequenceDropFirst(r, s[1..]);
      SubsequenceExtend(r[1..], s);
    }
  }

  /** A subsequence of the tail is a subsequence of the whole. */
  lemma {:induction false} SubsequenceExtend<T>(r: seq<T>, s: seq<T>)
    requires |s| > 0 && IsSubsequence(r, s[1..])
    ensures IsSubsequence(r, s)
    decreases |s|, 0
  {
    if |r| > 0 && r[0] == s[0] {
      SubsequenceDropFirst(r, s[1..]);
    }
  }

  /** The subsequence relation is transitive. */
  lemma {:induction false} SubsequenceTransitive<T>(a: seq<T>, b: seq<T>, c: seq<T>)
    requires IsSubsequence(a, b) && IsSubsequence(b, c)
    ensures IsSubsequence(a, c)
    decreases |c|
  {
    if |a| == 0 {
    } else if b[0] == c[0] {
      if a[0] == b[0] {
        SubsequenceTransitive(a[1..], b[1..], c[1..]);
      } else {
        SubsequenceTransitive(a, b[1..], c[1..]);
        SubsequenceExtend(a, c);
      }
    } else {
      SubsequenceTransitive(a, b, c[1..]);
      SubsequenceExtend(a, c);
    }
  }

  /** The elements of `s` that satisfy `keep`, in their original order
      (`Array.prototype.filter`). */
  function Filter<T(!new)>(s: seq<T>, keep: T -> bool): (r: seq<T>)
    ensures |r| == Count(s, keep)
    ensures forall i :: 0 <= i < |r| ==> keep(r[i])
    ensures forall x :: x in r <==> x in s && keep(x)
    ensures IsSubsequence(r, s)
  {
    if |s| == 0 then []
    else
      var rest := Filter(s[1..], keep);
      assert forall i :: 1 <= i < |s| ==> s[i] == s[1..][i - 1];
      if keep(s[0]) then
        assert ([s[0]] + rest)[1..] == rest;
        [s[0]] + rest
      else
        assert |rest| > 0 ==> rest[0] != s[0];
        rest
  }

  /** Filtering with a predicate that holds of every element changes nothing. */
  lemma {:induction false} FilterKeepsAll<T(!new)>(s: seq<T>, keep: T -> bool)
    requires forall i :: 0 <= i < |s| ==> keep(s[i])
    ensures Filter(s, keep) == s
    decreases |s|
  {
    if |s| > 0 {
      FilterKeepsAll(s[1..], keep);
    }
  }

  /** Filtering distributes over appending one element at the end. */
  lemma {:induction false} FilterSnoc<T(!new)>(s: seq<T>, x: T, keep: T -> bool)
    ensures Filter(s + [x], keep) == Filter(s, keep) + (if keep(x) then [x] else [])
    decreases |s|
  {
    if |s| == 0 {
      assert [x][1..] == [];
    } else {
      assert (s + [x])[1..] == s[1..] + [x];
      FilterSnoc(s[1..], x, keep);
    }
  }

  /** Filtering with two predicates that agree on every element of `s`
      gives the same result. */
  lemma {:induction false} FilterCongruent<T(!new)>(s: seq<T>, p: T -> bool, q: T -> bool)
    requires forall i :: 0 <= i < |s| ==> p(s[i]) == q(s[i])
    ensures Filter(s, p) == Filter(s, q)
    decreases |s|
  {
    if |s| > 0 {
      assert forall i :: 1 <= i < |s| ==> s[i] == s[1..][i - 1];
      FilterCongruent(s[1..], p, q);
    }
  }

  /** Filtering twice is filtering once with the conjunction. */
  lemma {:induction false} FilterFilter<T(!new)>(s: seq<T>, p: T -> bool, q: T -> bool, pq: T -> bool)
    requires forall i :: 0 <= i < |s| ==> pq(s[i]) == (p(s[i]) && q(s[i]))
    ensures Filter(Filter(s, p), q) == Filter(s, pq)
    decreases |s|
  {
    if |s| > 0 {
      assert forall i :: 1 <= i < |s| ==> s[i] == s[1..][i - 1];
      FilterFilter(s[1..], p, q, pq);
      var rest := Filter(s[1..], p);
      if p(s[0]) {
        assert ([s[0]] + rest)[0] == s[0] && ([s[0]] + rest)[1..] == rest;
      }
    }
  }

  /** Two distinct positions satisfying `p` give a count of at least two. */
  lemma {:induction false} CountTwo<T>(s: seq<T>, p: T -> bool, i: nat, j: nat)
    requires i < j < |s| && p(s[i]) && p(s[j])
    ensures Count(s, p) >= 2
    decreases |s|
  {
    if i == 0 {
      assert p(s[1..][j - 1]);
    } else {
      CountTwo(s[1..], p, i - 1, j - 1);
    }
  }

  /** Replaces every element satisfying `sel` by its image under `f` and keeps
      the others (`Array.prototype.map` with a conditional). */
  function UpdateWhere<T>(s: seq<T>, sel: T -> bool, f: T -> T): (r: seq<T>)
    ensures |r| == |s|
    ensures forall i :: 0 <= i < |s| && sel(s[i]) ==> r[i] == f(s[i])
    ensures forall i :: 0 <= i < |s| && !sel(s[i]) ==> r[i] == s[i]
  {
    if |s| == 0 then []
    else [if sel(s[0]) then f(s[0]) else s[0]] + UpdateWhere(s[1..], sel, f)
  }

  /** An update that selects nothing is the identity. */
  lemma UpdateWhereNoMatch<T>(s: seq<T>, sel: T -> bool, f: T -> T)
    requires forall i :: 0 <= i < |s| ==> !sel(s[i])
    ensures UpdateWhere(s, sel, f) == s
  {
  }

  /** Counting with two predicates that never hold together adds up to
      counting with their disjunction. */
  lemma {:induction false} CountDisjointSum<T>(s: seq<T>, p: T -> bool, q: T -> bool, pq: T -> bool)
    requires forall i :: 0 <= i < |s| ==> !(p(s[i]) && q(s[i])) && pq(s[i]) == (p(s[i]) || q(s[i]))
    ensures Count(s, p) + Count(s, q) == Count(s, pq)
    decreases |s|
  {
    if |s| > 0 {
      assert forall i :: 1 <= i < |s| ==> s[i] == s[1..][i - 1];
      CountDisjointSum(s[1..], p, q, pq);
    }
  }

  /** A weaker predicate counts at least as many elements. */
  lemma {:induction false} CountMonotone<T>(s: seq<T>, p: T -> bool, q: T -> bool)
    requires forall i :: 0 <= i < |s| ==> p(s[i]) ==> q(s[i])
    ensures Count(s, p) <= Count(s, q)
    decreases |s|
  {
    if |s| > 0 {
      assert forall i :: 1 <= i < |s| ==> s[i] == s[1..][i - 1];
      CountMonotone(s[1..], p, q);
    }
  }

  /** No element occurs twice. */
  predicate NoDuplicates<T(==)>(s: seq<T>)
  {
    forall i, j :: 0 <= i < j < |s| ==> s[i] != s[j]
  }
}

=== FILE: task_filters.dfy ===
/** The task filter bar: a record of three strings (status, priority, search)
    owned by the tasks page, three field-wise setters, a reset, and the rule
    for showing the reset button. */
module TaskFilters {

  /** `status` and `priority` hold either "all" or a status / priority
      literal; `search` is free text. */
  datatype Filters = Filters(status: string, priority: string, search: string)

  /** The value `handleReset` installs, which is also the page's initial
      filter state. */
  const ResetFilters := Filters("all", "all", "")

  /** `handleSearchChange`. */
  function SetSearch(f: Filters, value: string): (r: Filters)
    ensures r.search == value
    ensures r.status == f.status && r.priority == f.priority
  {
    f.(search := value)
  }

  /** `handleStatusChange`. */
  function SetStatus(f: Filters, value: string): (r: Filters)
    ensures r.status == value
    ensures r.search == f.search && r.priority == f.priority
  {
    f.(status := value)
  }

  /** `handlePriorityChange`. */
  function SetPriority(f: Filters, value: string): (r: Filters)
    ensures r.priority == value
    ensures r.search == f.search && r.status == f.status
  {
    f.(priority := value)
  }

  /** `handleReset`: whatever the current filters, the result is the reset
      value. */
  function Reset(f: Filters): (r: Filters)
    ensures r.status == "all" && r.priority == "all" && r.search == ""
  {
    ResetFilters
  }

  /** The reset button is rendered when status or priority is not "all" or
      the search text is non-empty. */
  predicate ShowsReset(f: Filters)
  {
    f.status != "all" || f.priority != "all" || f.search != ""
  }

  /** The button is shown exactly when the filters differ from their reset
      value, so it is hidden right after a reset. */
  lemma ShowsResetIffNotReset(f: Filters)
    ensures ShowsReset(f) <==> f != ResetFilters
    ensures !ShowsReset(Reset(f))
  {
  }
}

=== FILE: task_form.dfy ===
/** The task form: its fields, the validator, the tag editor and the payload
    it submits when creating or editing a task. The due date is held as the
    date-input string; converting between it and a timestamp is a pair of
    parameters (`formatDate`, `parseDate`). */
module TaskForm {
  import opened Types
  import opened Seqs
  import opened Text

  datatype TaskFormState = TaskFormState(
    title: string,
    description: string,
    status: Status,
    priority: Priority,
    dueDate: string,
    tags: seq<string>,
    tagInput: string,
    errors: map<string, string>)

  /** The form as it opens: the task's fields when editing (its due date
      formatted for the date input), otherwise blank fields, status todo,
      priority medium and the given default date (tomorrow). */
  function Init(initial: Option<Task>, formatDate: int -> string, tomorrow: string): (f: TaskFormState)
    ensures f.tagInput == "" && f.errors == map[]
    ensures initial.Some? ==> var t := initial.value;
      && f.title == t.title && f.description == t.description
      && f.status == t.status && f.priority == t.priority
      && f.dueDate == formatDate(t.dueDate) && f.tags == t.tags
    ensures initial.None? ==>
      && f.title == "" && f.description == "" && f.status == Todo && f.priority == Medium
      && f.dueDate == tomorrow && f.tags == []
  {
    match initial
    case Some(t) => TaskFormState(t.title, t.description, t.status, t.priority, formatDate(t.dueDate), t.tags, "", map[])
    case None => TaskFormState("", "", Todo, Medium, tomorrow, [], "", map[])
  }

  /** The form's state before its effect first runs. */
  const Blank := TaskFormState("", "", Todo, Medium, "", [], "", map[])

  /** The effect that runs whenever `initialValues` changes on a mounted
      form: a task loads its fields and formatted date; no task only resets
      the due date to tomorrow. The tag input and the errors are never
      touched. */
  function Reload(f: TaskFormState, initial: Option<Task>, formatDate: int -> string, tomorrow: string): (r: TaskFormState)
    ensures r.tagInput == f.tagInput && r.errors == f.errors
    ensures initial.Some? ==> var t := initial.value;
      && r.title == t.title && r.description == t.description
      && r.status == t.status && r.priority == t.priority
      && r.dueDate == formatDate(t.dueDate) && r.tags == t.tags
    ensures initial.None? ==> r.dueDate == tomorrow && r == f.(dueDate := r.dueDate)
  {
    match initial
    case Some(t) => f.(title := t.title, description := t.description, status := t.status,
                       priority := t.priority, dueDate := formatDate(t.dueDate), tags := t.tags)
    case None => f.(dueDate := tomorrow)
  }

  /** A fresh mount is the effect run once on the blank state. */
  lemma InitIsFreshReload(initial: Option<Task>, formatDate: int -> string, tomorrow: string)
    ensures Init(initial, formatDate, tomorrow) == Reload(Blank, initial, formatDate, tomorrow)
  {
  }

  /** A form left mounted while it switches from editing `t` to adding a
      task keeps `t`'s title, description, status, priority and tags, with
      only the date reset; submitting it creates a task carrying them. */
  lemma EditThenAddKeepsFields(t: Task, formatDate: int -> string, parseDate: string -> int, tomorrow: string, now: int)
    ensures var f := Reload(Init(Some(t), formatDate, tomorrow), None, formatDate, tomorrow);
      && f.title == t.title && f.description == t.description && f.status == t.status
      && f.priority == t.priority && f.tags == t.tags && f.dueDate == tomorrow
      && (Validate(f).0 ==>
            Submit(f, None, parseDate, now).payload
            == Some(Create(TaskDraft(t.title, t.description, t.status, t.priority, parseDate(tomorrow), "user123", "user123", t.tags))))
  {
  }

  // ---------------------------------------------------------------------
  // Validation

  /** The error record `validate` builds: a title or description that is
      blank after trimming, and an empty due-date string, each get their
      message under their field name. */
  function Errors(f: TaskFormState): (e: map<string, string>)
    ensures e.Keys <= {"title", "description", "dueDate"}
    ensures "title" in e <==> Trim(f.title) == ""
    ensures "description" in e <==> Trim(f.description) == ""
    ensures "dueDate" in e <==> f.dueDate == ""
    ensures "title" in e ==> e["title"] == "Title is required"
    ensures "description" in e ==> e["description"] == "Description is required"
    ensures "dueDate" in e ==> e["dueDate"] == "Due date is required"
  {
    var e0: map<string, string> := map[];
    var e1 := if Trim(f.title) == "" then e0["title" := "Title is required"] else e0;
    var e2 := if Trim(f.description) == "" then e1["description" := "Description is required"] else e1;
    if f.dueDate == "" then e2["dueDate" := "Due date is required"] else e2
  }

  /** `validate`: installs the error record and reports whether it is
      empty, which is when title and description are not blank and a due
      date is set. */
  function Validate(f: TaskFormState): (r: (bool, TaskFormState))
    ensures r.1 == f.(errors := Errors(f))
    ensures r.0 <==> !IsBlank(f.title) && !IsBlank(f.description) && f.dueDate != ""
  {
    var e := Errors(f);
    assert |e| == 0 <==> e == map[] by {
      if |e| == 0 {
        assert e.Keys == {};
      }
    }
    (|e| == 0, f.(errors := e))
  }

  // ---------------------------------------------------------------------
  // Tags

  /** `handleAddTag`: the trimmed input is appended only when it is not
      blank and not already a tag, and only then is the input cleared;
      otherwise nothing changes. */
  function AddTag(f: TaskFormState): (r: TaskFormState)
    ensures var t := Trim(f.tagInput);
      (t != "" && t !in f.tags ==> r == f.(tags := f.tags + [t], tagInput := ""))
      && (t == "" || t in f.tags ==> r == f)
  {
    var t := Trim(f.tagInput);
    if t != "" && t !in f.tags then f.(tags := f.tags + [t], tagInput := "") else f
  }

  /** `handleRemoveTag`: every occurrence of the tag goes, the rest keep
      their order; nothing else changes. */
  function RemoveTag(f: TaskFormState, tag: string): (r: TaskFormState)
    ensures tag !in r.tags
    ensures forall x :: x in r.tags <==> x in f.tags && x != tag
    ensures IsSubsequence(r.tags, f.tags)
    ensures |r.tags| == Count(f.tags, OtherTag(tag))
    ensures r == f.(tags := r.tags)
  {
    f.(tags := Filter(f.tags, OtherTag(tag)))
  }

  /** Keeps the tags other than `tag`. */
  function OtherTag(tag: string): string -> bool
  {
    (x: string) => x != tag
  }

  /** A tag list without repeats stays without repeats under adding, and
      every added tag is trimmed and not blank. */
  lemma AddTagKeepsTagsDistinct(f: TaskFormState)
    requires NoDuplicates(f.tags)
    ensures NoDuplicates(AddTag(f).tags)
    ensures forall i :: |f.tags| <= i < |AddTag(f).tags| ==>
      AddTag(f).tags[i] != "" && Trim(AddTag(f).tags[i]) == AddTag(f).tags[i]
  {
    var t := Trim(f.tagInput);
    if t != "" && t !in f.tags {
      TrimIdempotent(f.tagInput);
    }
  }

  /** Removing a tag that was just added restores the tag list. */
  lemma RemoveUndoesAddTag(f: TaskFormState)
    requires Trim(f.tagInput) != "" && Trim(f.tagInput) !in f.tags
    ensures RemoveTag(AddTag(f), Trim(f.tagInput)).tags == f.tags
  {
    var t := Trim(f.tagInput);
    FilterSnoc(f.tags, t, OtherTag(t));
    FilterKeepsAll(f.tags, OtherTag(t));
  }

  // ---------------------------------------------------------------------
  // Submission

  /** What `onSubmit` receives: a draft when creating, a whole task (with
      the original id and creation time) when editing. */
  datatype TaskPayload = Create(draft: TaskDraft) | Edit(task: Task)

  /** The form fields as a draft: assignee and creator are fixed to
      "user123", and the due-date string is converted to a timestamp. */
  function FormDraft(f: TaskFormState, parseDate: string -> int): (d: TaskDraft)
    ensures d.title == f.title && d.description == f.description
    ensures d.status == f.status && d.priority == f.priority && d.tags == f.tags
    ensures d.dueDate == parseDate(f.dueDate)
    ensures d.assigneeId == "user123" && d.createdById == "user123"
  {
    TaskDraft(f.title, f.description, f.status, f.priority, parseDate(f.dueDate), "user123", "user123", f.tags)
  }

  datatype SubmitResult = SubmitResult(form: TaskFormState, payload: Option<TaskPayload>)

  /** `handleSubmit`: validates (recording the errors) and submits only a
      valid form. Editing keeps the original id and creation time and
      stamps the update time; creating carries none of the three. */
  function Submit(f: TaskFormState, initial: Option<Task>, parseDate: string -> int, now: int): (r: SubmitResult)
    ensures r.form == f.(errors := Errors(f))
    ensures r.payload.Some? <==> Validate(f).0
    ensures r.payload.Some? && initial.None? ==> r.payload == Some(Create(FormDraft(f, parseDate)))
    ensures r.payload.Some? && initial.Some? ==>
      && r.payload.value.Edit?
      && var t := r.payload.value.task;
      && DraftOf(t) == FormDraft(f, parseDate)
      && t.id == initial.value.id && t.createdAt == initial.value.createdAt && t.updatedAt == now
  {
    var (ok, g) := Validate(f);
    if !ok then SubmitResult(g, None)
    else
      var d := FormDraft(f, parseDate);
      match initial
      case None => SubmitResult(g, Some(Create(d)))
      case Some(t) => SubmitResult(g, Some(Edit(TaskOfDraft(d, t.id, t.createdAt, now))))
  }

  /** Opening a valid task for editing and saving it unchanged gives back
      the task with only its update time changed, provided the date input
      round-trips its due date and the task was made by "user123" for
      "user123". The date input holds a calendar day, so a due time other
      than the one `parseDate` picks for that day is not preserved. */
  lemma EditUnchangedRoundTrip(t: Task, formatDate: int -> string, parseDate: string -> int, now: int)
    requires !IsBlank(t.title) && !IsBlank(t.description) && formatDate(t.dueDate) != ""
    requires parseDate(formatDate(t.dueDate)) == t.dueDate
    requires t.assigneeId == "user123" && t.createdById == "user123"
    ensures Submit(Init(Some(t), formatDate, ""), Some(t), parseDate, now).payload == Some(Edit(t.(updatedAt := now)))
  {
  }
}

=== FILE: task_list.dfy ===
/** The task list: the per-task status menu (its options, opening and
    closing it, and forwarding a choice) and the overdue marker. */
module TaskList {
  import opened Types
  import opened Seqs
  import opened TaskStore
  import TasksPage

  const AllStatuses := [Todo, InProgress, Review, Done]

  /** The filter predicate of `getStatusOptions`. */
  function Other(current: Status): Status -> bool
  {
    (s: Status) => s != current
  }

  /** `getStatusOptions`: the four statuses in their fixed order, minus the
      current one. */
  function StatusOptions(current: Status): (r: seq<Status>)
    ensures |r| == 3
    ensures forall s :: s in r <==> s != current
    ensures IsSubsequence(r, AllStatuses)
  {
    StatusOptionsFacts(current);
    Filter(AllStatuses, Other(current))
  }

  lemma StatusOptionsFacts(current: Status)
    ensures Count(AllStatuses, Other(current)) == 3
    ensures forall s :: s in AllStatuses
  {
    forall s: Status ensures s in AllStatuses {
      assert s == AllStatuses[IndexOf(s)];
    }
    CountOneMiss(AllStatuses, current, IndexOf(current));
  }

  /** The position of a status in `AllStatuses`. */
  function IndexOf(s: Status): nat
  {
    match s
    case Todo => 0
    case InProgress => 1
    case Review => 2
    case Done => 3
  }

  /** In a sequence without repeats exactly one position holds `x`, so all
      but one element differ from it. */
  lemma {:induction false} CountOneMiss(s: seq<Status>, x: Status, k: nat)
    requires NoDuplicates(s) && k < |s| && s[k] == x
    ensures Count(s, Other(x)) == |s| - 1
    decreases |s|
  {
    if k == 0 {
      assert forall i :: 0 <= i < |s[1..]| ==> s[1..][i] != x;
    } else {
      CountOneMiss(s[1..], x, k - 1);
    }
  }

  /** `toggleStatusMenu`: clicking the open task's button closes the menu;
      clicking any other task's opens it for that task. */
  function ToggleStatusMenu(open: Option<string>, taskId: string): (r: Option<string>)
    ensures r.None? <==> open == Some(taskId)
    ensures r.Some? ==> r == Some(taskId)
  {
    if open == Some(taskId) then None else Some(taskId)
  }

  /** Toggling twice restores a closed menu and the menu open for that
      task; a menu open for another task ends closed. */
  lemma ToggleTwice(open: Option<string>, taskId: string)
    ensures open.None? || open == Some(taskId) ==> ToggleStatusMenu(ToggleStatusMenu(open, taskId), taskId) == open
    ensures open.Some? && open != Some(taskId) ==> ToggleStatusMenu(ToggleStatusMenu(open, taskId), taskId).None?
  {
  }

  /** `handleStatusChange`: forwards the choice to the page, which updates
      the task's status and update time, and closes the menu. */
  function HandleStatusChange(s: TaskState, open: Option<string>, taskId: string, status: Status, now: int): (r: (TaskState, Option<string>))
    ensures r.1.None?
    ensures |r.0.tasks| == |s.tasks|
    ensures forall i :: 0 <= i < |s.tasks| && s.tasks[i].id == taskId ==>
      r.0.tasks[i] == s.tasks[i].(status := status, updatedAt := now)
    ensures forall i :: 0 <= i < |s.tasks| && s.tasks[i].id != taskId ==> r.0.tasks[i] == s.tasks[i]
  {
    (TasksPage.HandleStatusChange(s, taskId, status, now), None)
  }

  /** `isOverdue`: the due time is before now and on another calendar day
      (`dayOf` names the day a timestamp falls on). */
  predicate IsOverdue(due: int, now: int, dayOf: int -> string)
  {
    due < now && dayOf(due) != dayOf(now)
  }

  /** The "(Overdue)" marker: overdue and not done. */
  function ShowsOverdue(t: Task, now: int, dayOf: int -> string): (b: bool)
    ensures b ==> t.status != Done && t.dueDate < now
    ensures b <==> t.status != Done && IsOverdue(t.dueDate, now, dayOf)
  {
    IsOverdue(t.dueDate, now, dayOf) && t.status != Done
  }

  /** A task due earlier today is not marked, and marking a task done
      removes its marker. */
  lemma OverdueMarkerCases(t: Task, now: int, dayOf: int -> string)
    ensures dayOf(t.dueDate) == dayOf(now) ==> !ShowsOverdue(t, now, dayOf)
    ensures !ShowsOverdue(t.(status := Done), now, dayOf)
  {
  }
}

=== FILE: task_store.dfy ===
/** The task store: a list of tasks plus loading and error flags, with
    whole-list replacement, append, merge-by-id and delete-by-id. Every
    operation is a total function from state to state. */
module TaskStore {
  import opened Types
  import opened Seqs

  datatype TaskState = TaskState(tasks: seq<Task>, isLoading: bool, error: Option<string>)

  const Initial := TaskState([], false, None)

  /** Some task in `tasks` carries `id`. */
  predicate HasTask(tasks: seq<Task>, id: string)
  {
    exists i :: 0 <= i < |tasks| && tasks[i].id == id
  }

  /** `setTasks`: the list is replaced wholesale. */
  function SetTasks(s: TaskState, tasks: seq<Task>): (r: TaskState)
    ensures r.tasks == tasks
    ensures r.isLoading == s.isLoading && r.error == s.error
  {
    s.(tasks := tasks)
  }

  /** `addTask`: appends at the end without looking for an id collision. */
  function AddTask(s: TaskState, t: Task): (r: TaskState)
    ensures |r.tasks| == |s.tasks| + 1
    ensures r.tasks[..|s.tasks|] == s.tasks && r.tasks[|s.tasks|] == t
    ensures r.isLoading == s.isLoading && r.error == s.error
  {
    s.(tasks := s.tasks + [t])
  }

  /** `updateTask`: every task carrying `id` has the patch merged in; every
      other task is left as it was, in place. */
  function UpdateTask(s: TaskState, id: string, p: TaskPatch): (r: TaskState)
    ensures |r.tasks| == |s.tasks|
    ensures forall i :: 0 <= i < |s.tasks| && s.tasks[i].id == id ==> r.tasks[i] == p.ApplyTo(s.tasks[i])
    ensures forall i :: 0 <= i < |s.tasks| && s.tasks[i].id != id ==> r.tasks[i] == s.tasks[i]
    ensures r.isLoading == s.isLoading && r.error == s.error
  {
    s.(tasks := UpdateWhere(s.tasks, (t: Task) => t.id == id, (t: Task) => p.ApplyTo(t)))
  }

  /** `deleteTask`: removes every task carrying `id` and keeps the rest in
      their original order. */
  function DeleteTask(s: TaskState, id: string): (r: TaskState)
    ensures forall i :: 0 <= i < |r.tasks| ==> r.tasks[i].id != id
    ensures forall i :: 0 <= i < |s.tasks| && s.tasks[i].id != id ==> s.tasks[i] in r.tasks
    ensures IsSubsequence(r.tasks, s.tasks)
    ensures |r.tasks| == Count(s.tasks, OtherThan(id))
    ensures r.isLoading == s.isLoading && r.error == s.error
  {
    s.(tasks := Filter(s.tasks, OtherThan(id)))
  }

  /** Keeps the tasks whose id is not `id`. */
  function OtherThan(id: string): Task -> bool
  {
    (t: Task) => t.id != id
  }

  /** `setLoading`: only the loading flag changes. */
  function SetLoading(s: TaskState, isLoading: bool): (r: TaskState)
    ensures r.isLoading == isLoading
    ensures r.tasks == s.tasks && r.error == s.error
  {
    s.(isLoading := isLoading)
  }

  /** `setError`: only the error changes. */
  function SetError(s: TaskState, error: Option<string>): (r: TaskState)
    ensures r.error == error
    ensures r.tasks == s.tasks && r.isLoading == s.isLoading
  {
    s.(error := error)
  }

  /** Updating an id that no task carries changes nothing. */
  lemma UpdateAbsentIsNoop(s: TaskState, id: string, p: TaskPatch)
    requires !HasTask(s.tasks, id)
    ensures UpdateTask(s, id, p) == s
  {
    UpdateWhereNoMatch(s.tasks, (t: Task) => t.id == id, (t: Task) => p.ApplyTo(t));
  }

  /** Deleting an id that no task carries changes nothing. */
  lemma DeleteAbsentIsNoop(s: TaskState, id: string)
    requires !HasTask(s.tasks, id)
    ensures DeleteTask(s, id) == s
  {
    FilterKeepsAll(s.tasks, OtherThan(id));
  }

  /** Deleting the id of a task just added under a fresh id restores the
      previous state. */
  lemma DeleteUndoesAdd(s: TaskState, t: Task)
    requires !HasTask(s.tasks, t.id)
    ensures DeleteTask(AddTask(s, t), t.id) == s
  {
    FilterSnoc(s.tasks, t, OtherThan(t.id));
    FilterKeepsAll(s.tasks, OtherThan(t.id));
  }

  /** Adding under an id that is already present keeps both tasks: the store
      does not deduplicate. */
  lemma AddKeepsDuplicates(s: TaskState, t: Task)
    requires HasTask(s.tasks, t.id)
    ensures Count(AddTask(s, t).tasks, (x: Task) => x.id == t.id) >= 2
  {
    var r := AddTask(s, t).tasks;
    var i :| 0 <= i < |s.tasks| && s.tasks[i].id == t.id;
    CountTwo(r, (x: Task) => x.id == t.id, i, |s.tasks|);
  }
}

=== FILE: tasks_page.dfy ===
/** The tasks page: the filter-then-sort view of the task store, and the
    handlers that turn form submissions and status changes into store calls. */
module TasksPage {
  import opened Types
  import opened Seqs
  import opened Text
  import opened TaskFilters
  import opened TaskStore

  // ---------------------------------------------------------------------
  // Filtering

  /** A task passes the status filter when the filter is "all" or names the
      task's status exactly. */
  predicate StatusPasses(status: string, t: Task)
  {
    status == "all" || StatusName(t.status) == status
  }

  /** Same rule for priority. */
  predicate PriorityPasses(priority: string, t: Task)
  {
    priority == "all" || PriorityName(t.priority) == priority
  }

  /** The lower-cased search term occurs in the lower-cased title,
      description or some tag. */
  predicate SearchHits(search: string, t: Task)
  {
    || IncludesIgnoringCase(t.title, search)
    || IncludesIgnoringCase(t.description, search)
    || exists i :: 0 <= i < |t.tags| && IncludesIgnoringCase(t.tags[i], search)
  }

  /** An empty search skips text filtering. */
  predicate SearchPasses(search: string, t: Task)
  {
    search == "" || SearchHits(search, t)
  }

  predicate Passes(f: Filters, t: Task)
  {
    StatusPasses(f.status, t) && PriorityPasses(f.priority, t) && SearchPasses(f.search, t)
  }

  /** The three filters as predicates over tasks: `Passes` split into its
      status, priority and search parts, and the first two together. */
  function StatusKeep(f: Filters): Task -> bool
  {
    (t: Task) => StatusPasses(f.status, t)
  }

  function PriorityKeep(f: Filters): Task -> bool
  {
    (t: Task) => PriorityPasses(f.priority, t)
  }

  function SearchKeep(f: Filters): Task -> bool
  {
    (t: Task) => SearchPasses(f.search, t)
  }

  function StatusAndPriority(f: Filters): Task -> bool
  {
    (t: Task) => StatusPasses(f.status, t) && PriorityPasses(f.priority, t)
  }

  function PassesAll(f: Filters): Task -> bool
  {
    (t: Task) => Passes(f, t)
  }

  /** One filter stage: runs `keep` over `s` when `active`, else passes `s`
      through. Each kept task is kept as often as it occurs. */
  function Stage(s: seq<Task>, active: bool, keep: Task -> bool): (r: seq<Task>)
    ensures forall x :: x in r <==> x in s && (active ==> keep(x))
    ensures |r| == (if active then Count(s, keep) else |s|)
    ensures IsSubsequence(r, s)
  {
    SubsequenceReflexive(s);
    if active then Filter(s, keep) else s
  }

  /** A stage is a filter by "inactive, or keep". */
  lemma StageIsFilter(s: seq<Task>, active: bool, keep: Task -> bool, full: Task -> bool)
    requires forall i :: 0 <= i < |s| ==> full(s[i]) == (!active || keep(s[i]))
    ensures Stage(s, active, keep) == Filter(s, full)
  {
    if active {
      FilterCongruent(s, keep, full);
    } else {
      FilterKeepsAll(s, full);
    }
  }

  /** The three filter stages as the page runs them, each only when its
      filter is active. */
  function Stages(tasks: seq<Task>, f: Filters): seq<Task>
  {
    var byStatus := Stage(tasks, f.status != "all", (t: Task) => StatusName(t.status) == f.status);
    var byPriority := Stage(byStatus, f.priority != "all", (t: Task) => PriorityName(t.priority) == f.priority);
    Stage(byPriority, f.search != "", (t: Task) => SearchHits(f.search, t))
  }

  /** Running the stages one after another is one filter pass keeping the
      tasks that pass all three filters. */
  lemma StagesAreOnePass(tasks: seq<Task>, f: Filters)
    ensures Stages(tasks, f) == Filter(tasks, PassesAll(f))
  {
    var byStatus := Stage(tasks, f.status != "all", (t: Task) => StatusName(t.status) == f.status);
    StageIsFilter(tasks, f.status != "all", (t: Task) => StatusName(t.status) == f.status, StatusKeep(f));
    var byPriority := Stage(byStatus, f.priority != "all", (t: Task) => PriorityName(t.priority) == f.priority);
    StageIsFilter(byStatus, f.priority != "all", (t: Task) => PriorityName(t.priority) == f.priority, PriorityKeep(f));
    FilterFilter(tasks, StatusKeep(f), PriorityKeep(f), StatusAndPriority(f));
    assert byPriority == Filter(tasks, StatusAndPriority(f));
    StageIsFilter(byPriority, f.search != "", (t: Task) => SearchHits(f.search, t), SearchKeep(f));
    FilterFilter(tasks, StatusAndPriority(f), SearchKeep(f), PassesAll(f));
  }

  /** `filteredTasks` before sorting: the stages, which keep exactly the
      passing tasks, each as often as it occurs, in order. */
  function FilterTasks(tasks: seq<Task>, f: Filters): (r: seq<Task>)
    ensures r == Filter(tasks, PassesAll(f))
    ensures |r| == Count(tasks, PassesAll(f))
    ensures forall x :: x in r <==> x in tasks && Passes(f, x)
    ensures IsSubsequence(r, tasks)
  {
    StagesAreOnePass(tasks, f);
    Stages(tasks, f)
  }

  /** With every filter at its reset value the filter stage is the identity. */
  lemma ResetFiltersKeepEverything(tasks: seq<Task>)
    ensures FilterTasks(tasks, ResetFilters) == tasks
  {
  }

  // ---------------------------------------------------------------------
  // Sorting

  /** The rank the comparator gives each priority: urgent first. */
  function Rank(p: Priority): int
  {
    match p
    case Urgent => 0
    case High => 1
    case Medium => 2
    case Low => 3
  }

  /** The sort comparator: priority rank difference, then due-date
      difference. */
  function Compare(a: Task, b: Task): int
  {
    var d := Rank(a.priority) - Rank(b.priority);
    if d != 0 then d else a.dueDate - b.dueDate
  }

  /** The comparator is antisymmetric, a higher priority always comes
      first, and only tasks with equal priority and due date compare
      equal. */
  lemma CompareOrder(a: Task, b: Task)
    ensures Compare(a, b) == -Compare(b, a)
    ensures Compare(a, b) == 0 <==> a.priority == b.priority && a.dueDate == b.dueDate
    ensures Rank(a.priority) < Rank(b.priority) ==> Compare(a, b) < 0
    ensures a.priority == b.priority ==> Compare(a, b) == a.dueDate - b.dueDate
  {
  }

  /** Non-decreasing under the comparator. */
  ghost predicate Sorted(s: seq<Task>)
  {
    forall i, j :: 0 <= i < j < |s| ==> Compare(s[i], s[j]) <= 0
  }

  /** Two tasks the comparator cannot tell apart share this key. */
  datatype SortKey = SortKey(rank: int, due: int)

  function KeyOf(t: Task): SortKey
  {
    SortKey(Rank(t.priority), t.dueDate)
  }

  /** The tasks of `s` carrying key `k`, in their order in `s`. */
  ghost function Ties(s: seq<Task>, k: SortKey): seq<Task>
  {
    if |s| == 0 then []
    else (if KeyOf(s[0]) == k then [s[0]] else []) + Ties(s[1..], k)
  }

  /** Inserts `x` before the first element it does not compare after. */
  function Insert(x: Task, l: seq<Task>): (r: seq<Task>)
    ensures multiset(r) == multiset(l) + multiset{x}
  {
    if |l| == 0 || Compare(x, l[0]) <= 0 then
      [x] + l
    else
      assert l == [l[0]] + l[1..];
      [l[0]] + Insert(x, l[1..])
  }

  /** Inserting into a sorted list keeps it sorted. */
  lemma {:induction false} InsertSorted(x: Task, l: seq<Task>)
    requires Sorted(l)
    ensures Sorted(Insert(x, l))
    decreases |l|
  {
    if |l| > 0 && Compare(x, l[0]) > 0 {
      var rest := Insert(x, l[1..]);
      InsertSorted(x, l[1..]);
      forall j | 0 <= j < |rest| ensures Compare(l[0], rest[j]) <= 0 {
        assert rest[j] in multiset(rest);
        assert rest[j] == x || rest[j] in multiset(l[1..]);
      }
      assert Insert(x, l) == [l[0]] + rest;
    }
  }

  /** Inserting `x` puts it in front of the tasks that share its key and
      leaves every other key's ties alone. */
  lemma {:induction false} InsertTies(x: Task, l: seq<Task>, k: SortKey)
    requires Sorted(l)
    ensures Ties(Insert(x, l), k) == (if KeyOf(x) == k then [x] else []) + Ties(l, k)
    decreases |l|
  {
    if |l| == 0 || Compare(x, l[0]) <= 0 {
      assert ([x] + l)[1..] == l;
    } else {
      var rest := Insert(x, l[1..]);
      assert ([l[0]] + rest)[1..] == rest;
      InsertTies(x, l[1..], k);
      assert KeyOf(x) != KeyOf(l[0]);
    }
  }

  /** Stable insertion sort by the comparator; `Array.prototype.sort` is
      stable, so this is the order the page shows. The result is a
      permutation of the input, sorted, and tasks with equal keys keep their
      input order. */
  function SortTasks(s: seq<Task>): (r: seq<Task>)
    ensures multiset(r) == multiset(s)
    ensures Sorted(r)
    ensures forall k :: Ties(r, k) == Ties(s, k)
  {
    if |s| == 0 then []
    else
      var rest := SortTasks(s[1..]);
      assert s == [s[0]] + s[1..];
      InsertSorted(s[0], rest);
      assert forall k :: Ties(Insert(s[0], rest), k) == Ties(s, k) by {
        forall k ensures Ties(Insert(s[0], rest), k) == Ties(s, k) {
          InsertTies(s[0], rest, k);
        }
      }
      Insert(s[0], rest)
  }

  /** What the page lists: the filtered tasks, sorted. */
  function VisibleTasks(tasks: seq<Task>, f: Filters): (r: seq<Task>)
    ensures multiset(r) == multiset(Filter(tasks, PassesAll(f)))
    ensures Sorted(r)
  {
    SortTasks(FilterTasks(tasks, f))
  }

  /** The listed tasks are exactly the passing tasks of the store, each as
      often as it passes, sorted, with ties in store order. */
  lemma VisibleTasksCorrect(tasks: seq<Task>, f: Filters)
    ensures var r := VisibleTasks(tasks, f);
      && multiset(r) == multiset(Filter(tasks, PassesAll(f)))
      && |r| == Count(tasks, PassesAll(f))
      && (forall x :: x in r <==> x in tasks && Passes(f, x))
      && Sorted(r)
      && (forall k :: Ties(r, k) == Ties(Filter(tasks, PassesAll(f)), k))
  {
    var fl := FilterTasks(tasks, f);
    var r := VisibleTasks(tasks, f);
    forall x ensures x in r <==> x in tasks && Passes(f, x) {
      assert x in r <==> x in multiset(r);
      assert x in fl <==> x in multiset(fl);
    }
  }

  // ---------------------------------------------------------------------
  // Handlers

  /** `handleAddTask`: appends a task built from the submitted fields, a
      fresh id and the current time as both stamps. */
  function HandleAddTask(s: TaskState, d: TaskDraft, id: string, now: int): (r: TaskState)
    ensures |r.tasks| == |s.tasks| + 1 && r.tasks[..|s.tasks|] == s.tasks
    ensures var t := r.tasks[|s.tasks|];
      DraftOf(t) == d && t.id == id && t.createdAt == now && t.updatedAt == now
  {
    AddTask(s, TaskOfDraft(d, id, now, now))
  }

  /** `handleUpdateTask`: every task carrying the edited task's id becomes
      the edited task restamped with the current time. */
  function HandleUpdateTask(s: TaskState, edited: Task, now: int): (r: TaskState)
    ensures |r.tasks| == |s.tasks|
    ensures forall i :: 0 <= i < |s.tasks| && s.tasks[i].id == edited.id ==> r.tasks[i] == edited.(updatedAt := now)
    ensures forall i :: 0 <= i < |s.tasks| && s.tasks[i].id != edited.id ==> r.tasks[i] == s.tasks[i]
  {
    UpdateTask(s, edited.id, FullTaskPatch(edited.(updatedAt := now)))
  }

  /** `handleStatusChange`: only `status` and `updatedAt` of the target
      task change. */
  function HandleStatusChange(s: TaskState, id: string, status: Status, now: int): (r: TaskState)
    ensures |r.tasks| == |s.tasks|
    ensures forall i :: 0 <= i < |s.tasks| && s.tasks[i].id == id ==> r.tasks[i] == s.tasks[i].(status := status, updatedAt := now)
    ensures forall i :: 0 <= i < |s.tasks| && s.tasks[i].id != id ==> r.tasks[i] == s.tasks[i]
  {
    UpdateTask(s, id, NoTaskChange.(status := Some(status), updatedAt := Some(now)))
  }

  /** `handleDeleteTask`: the task is deleted only when the user confirms. */
  function HandleDeleteTask(s: TaskState, id: string, confirmed: bool): (r: TaskState)
    ensures !confirmed ==> r == s
    ensures confirmed ==> r == DeleteTask(s, id)
    ensures confirmed ==> forall i :: 0 <= i < |r.tasks| ==> r.tasks[i].id != id
    ensures confirmed ==> |r.tasks| == Count(s.tasks, OtherThan(id))
    ensures IsSubsequence(r.tasks, s.tasks)
  {
    SubsequenceReflexive(s.tasks);
    if confirmed then DeleteTask(s, id) else s
  }
}

=== FILE: team_member_form.dfy ===
/** The team-member form: its fields, the validator with its email pattern,
    and the payload it submits. `encodeURIComponent` is a parameter. */
module TeamMemberForm {
  import opened Types
  import opened Text

  datatype MemberFormState = MemberFormState(
    displayName: string,
    email: string,
    photoURL: string,
    role: Role,
    department: string,
    position: string,
    errors: map<string, string>)

  /** The form as it opens: the member's fields when editing, otherwise
      blank fields with role member. */
  function Init(initial: Option<TeamMember>): (f: MemberFormState)
    ensures f.errors == map[]
    ensures initial.Some? ==> MemberDraftOf(initial.value) == MemberDraft(f.displayName, f.email, f.photoURL, f.role, f.department, f.position)
    ensures initial.None? ==> f == MemberFormState("", "", "", Member, "", "", map[])
  {
    match initial
    case Some(m) => MemberFormState(m.displayName, m.email, m.photoURL, m.role, m.department, m.position, map[])
    case None => MemberFormState("", "", "", Member, "", "", map[])
  }

  /** The effect that runs whenever `initialValues` changes on a mounted
      form: a member loads its fields (a missing photo as empty); no member
      changes nothing. The errors are never touched. */
  function Reload(f: MemberFormState, initial: Option<TeamMember>): (r: MemberFormState)
    ensures r.errors == f.errors
    ensures initial.Some? ==> MemberDraftOf(initial.value) == MemberDraft(r.displayName, r.email, r.photoURL, r.role, r.department, r.position)
    ensures initial.None? ==> r == f
  {
    match initial
    case Some(m) => f.(displayName := m.displayName, email := m.email, photoURL := m.photoURL,
                       role := m.role, department := m.department, position := m.position)
    case None => f
  }

  /** A fresh mount is the effect run once on the blank state. */
  lemma InitIsFreshReload(initial: Option<TeamMember>)
    ensures Init(initial) == Reload(Init(None), initial)
  {
  }

  /** A form left mounted while it switches from editing `m` to adding a
      member keeps every one of `m`'s fields; submitting it adds a member
      carrying them. */
  lemma EditThenAddKeepsFields(m: TeamMember, encode: string -> string, now: int)
    ensures var f := Reload(Init(Some(m)), None);
      && MemberDraftOf(m) == MemberDraft(f.displayName, f.email, f.photoURL, f.role, f.department, f.position)
      && (Validate(f).0 ==>
            Submit(f, None, encode, now).payload
            == Some(Create(MemberDraft(m.displayName, m.email, if m.photoURL != "" then m.photoURL else AvatarUrl(m.displayName, encode),
                                       m.role, m.department, m.position))))
  {
  }

  // ---------------------------------------------------------------------
  // The email pattern

  /** A character the class `[^\s@]` accepts. */
  predicate PatternChar(c: char)
  {
    !IsSpace(c) && c != '@'
  }

  /** Every character of `s[lo..hi]` is accepted by `[^\s@]`. */
  predicate PatternRun(s: string, lo: int, hi: int)
    requires 0 <= lo <= hi <= |s|
  {
    forall j :: lo <= j < hi ==> PatternChar(s[j])
  }

  /** `/^[^\s@]+@[^\s@]+\.[^\s@]+$/`: the string splits as a non-empty run,
      '@', a non-empty run, '.', a non-empty run, each run free of
      whitespace and '@'. */
  predicate EmailPattern(s: string)
  {
    exists i, k :: 0 < i && i + 1 < k && k + 1 < |s| && s[i] == '@' && s[k] == '.'
      && PatternRun(s, 0, i) && PatternRun(s, i + 1, k) && PatternRun(s, k + 1, |s|)
  }

  /** The same language described by shape: no whitespace, exactly one '@'
      and not at the start, and after it a '.' that is neither the first
      nor the last character of the domain. */
  predicate EmailShape(s: string)
  {
    && (forall j :: 0 <= j < |s| ==> !IsSpace(s[j]))
    && (exists i :: 0 < i < |s| && s[i] == '@'
         && (forall j :: 0 <= j < |s| && j != i ==> s[j] != '@')
         && (exists k :: i + 1 < k < |s| - 1 && s[k] == '.'))
  }

  /** The regular expression accepts exactly the strings of that shape. */
  lemma EmailPatternIffShape(s: string)
    ensures EmailPattern(s) <==> EmailShape(s)
  {
    if EmailPattern(s) {
      var i, k :| 0 < i && i + 1 < k && k + 1 < |s| && s[i] == '@' && s[k] == '.'
        && PatternRun(s, 0, i) && PatternRun(s, i + 1, k) && PatternRun(s, k + 1, |s|);
      assert forall j :: 0 <= j < |s| && j != i ==> PatternChar(s[j]) || j == k;
    }
    if EmailShape(s) {
      var i :| 0 < i < |s| && s[i] == '@'
        && (forall j :: 0 <= j < |s| && j != i ==> s[j] != '@')
        && (exists k :: i + 1 < k < |s| - 1 && s[k] == '.');
      var k :| i + 1 < k < |s| - 1 && s[k] == '.';
      assert PatternRun(s, 0, i) && PatternRun(s, i + 1, k) && PatternRun(s, k + 1, |s|);
    }
  }

  /** A valid email with a space in front or behind is not blank, so it
      passes the required check, but the pattern (which is tested on the
      untrimmed text) rejects it. */
  lemma PaddedEmailRejected(e: string)
    requires EmailPattern(e)
    ensures !IsBlank(" " + e) && !EmailPattern(" " + e)
    ensures !IsBlank(e + " ") && !EmailPattern(e + " ")
  {
    EmailPatternIffShape(e);
    EmailPatternIffShape(" " + e);
    EmailPatternIffShape(e + " ");
    assert (" " + e)[1] == e[0] && (e + " ")[0] == e[0];
    assert IsSpace((" " + e)[0]) && IsSpace((e + " ")[|e|]);
  }

  // ---------------------------------------------------------------------
  // Validation

  /** The error record `validate` builds. */
  function Errors(f: MemberFormState): (e: map<string, string>)
    ensures e.Keys <= {"displayName", "email", "department", "position"}
    ensures "displayName" in e <==> IsBlank(f.displayName)
    ensures "displayName" in e ==> e["displayName"] == "Name is required"
    ensures "email" in e <==> IsBlank(f.email) || !EmailPattern(f.email)
    ensures "email" in e ==> e["email"] == (if IsBlank(f.email) then "Email is required" else "Email is invalid")
    ensures "department" in e <==> IsBlank(f.department)
    ensures "department" in e ==> e["department"] == "Department is required"
    ensures "position" in e <==> IsBlank(f.position)
    ensures "position" in e ==> e["position"] == "Position is required"
  {
    var e0: map<string, string> := map[];
    var e1 := if Trim(f.displayName) == "" then e0["displayName" := "Name is required"] else e0;
    var e2 :=
      if Trim(f.email) == "" then e1["email" := "Email is required"]
      else if !EmailPattern(f.email) then e1["email" := "Email is invalid"]
      else e1;
    var e3 := if Trim(f.department) == "" then e2["department" := "Department is required"] else e2;
    if Trim(f.position) == "" then e3["position" := "Position is required"] else e3
  }

  /** `validate`: installs the error record and reports whether it is
      empty. */
  function Validate(f: MemberFormState): (r: (bool, MemberFormState))
    ensures r.1 == f.(errors := Errors(f))
    ensures r.0 <==> (!IsBlank(f.displayName) && EmailPattern(f.email)
                      && !IsBlank(f.department) && !IsBlank(f.position))
  {
    var e := Errors(f);
    assert |e| == 0 <==> e == map[] by {
      if |e| == 0 {
        assert e.Keys == {};
      }
    }
    assert EmailPattern(f.email) ==> !IsBlank(f.email) by {
      EmailPatternIffShape(f.email);
      if EmailPattern(f.email) {
        assert !IsSpace(f.email[0]);
      }
    }
    (|e| == 0, f.(errors := e))
  }

  // ---------------------------------------------------------------------
  // Submission

  const AvatarPrefix := "https://ui-avatars.com/api/?name="
  const AvatarSuffix := "&background=random"

  /** The generated avatar address for a name: the encoded name between a
      fixed prefix and suffix, so the encoded name can be read back. */
  function AvatarUrl(name: string, encode: string -> string): (url: string)
    ensures |url| == |AvatarPrefix| + |encode(name)| + |AvatarSuffix|
    ensures url[..|AvatarPrefix|] == AvatarPrefix
    ensures url[|AvatarPrefix|..|url| - |AvatarSuffix|] == encode(name)
    ensures url[|url| - |AvatarSuffix|..] == AvatarSuffix
  {
    AvatarPrefix + encode(name) + AvatarSuffix
  }

  /** The form fields as a draft; an empty photo address is replaced by the
      generated avatar. */
  function FormDraft(f: MemberFormState, encode: string -> string): (d: MemberDraft)
    ensures d.displayName == f.displayName && d.email == f.email && d.role == f.role
    ensures d.department == f.department && d.position == f.position
    ensures f.photoURL != "" ==> d.photoURL == f.photoURL
    ensures f.photoURL == "" ==> d.photoURL == AvatarUrl(f.displayName, encode)
    ensures d.photoURL != ""
  {
    MemberDraft(f.displayName, f.email, if f.photoURL != "" then f.photoURL else AvatarUrl(f.displayName, encode),
                f.role, f.department, f.position)
  }

  /** What `onSubmit` receives: a draft when adding, a whole member (with
      the original id and creation time) when editing. */
  datatype MemberPayload = Create(draft: MemberDraft) | Edit(member: TeamMember)

  datatype SubmitResult = SubmitResult(form: MemberFormState, payload: Option<MemberPayload>)

  /** `handleSubmit`: validates (recording the errors) and submits only a
      valid form. Editing keeps the original id and creation time and
      stamps the activity time. */
  function Submit(f: MemberFormState, initial: Option<TeamMember>, encode: string -> string, now: int): (r: SubmitResult)
    ensures r.form == f.(errors := Errors(f))
    ensures r.payload.Some? <==> Validate(f).0
    ensures r.payload.Some? && initial.None? ==> r.payload == Some(Create(FormDraft(f, encode)))
    ensures r.payload.Some? && initial.Some? ==>
      && r.payload.value.Edit?
      && var m := r.payload.value.member;
      && MemberDraftOf(m) == FormDraft(f, encode)
      && m.id == initial.value.id && m.createdAt == initial.value.createdAt && m.lastActive == now
  {
    var (ok, g) := Validate(f);
    if !ok then SubmitResult(g, None)
    else
      var d := FormDraft(f, encode);
      match initial
      case None => SubmitResult(g, Some(Create(d)))
      case Some(m) => SubmitResult(g, Some(Edit(MemberOfDraft(d, m.id, m.createdAt, now))))
  }

  /** Saving a valid member unchanged gives it back with only its activity
      time restamped, unless its photo address was empty, in which case it
      also gains the generated avatar. */
  lemma EditUnchangedRoundTrip(m: TeamMember, encode: string -> string, now: int)
    requires !IsBlank(m.displayName) && EmailPattern(m.email)
    requires !IsBlank(m.department) && !IsBlank(m.position)
    ensures var p := Submit(Init(Some(m)), Some(m), encode, now).payload;
      p == Some(Edit(m.(lastActive := now, photoURL := if m.photoURL != "" then m.photoURL else AvatarUrl(m.displayName, encode))))
  {
  }
}

=== FILE: team_page.dfy ===
/** The team page: the member search and the handlers that stamp and store
    added, edited and deleted members. Ids and times are inputs; the delete
    confirmation dialog is a boolean input. */
module TeamPage {
  import opened Types
  import opened Seqs
  import opened Text
  import opened TeamStore

  /** The page's view of the store and its own editing flags. */
  datatype PageState = PageState(team: TeamState, isAddingMember: bool, editingMember: Option<TeamMember>)

  /** The lower-cased search term occurs in the member's name, email,
      department or position. */
  predicate SearchHits(term: string, m: TeamMember)
  {
    || IncludesIgnoringCase(m.displayName, term)
    || IncludesIgnoringCase(m.email, term)
    || IncludesIgnoringCase(m.department, term)
    || IncludesIgnoringCase(m.position, term)
  }

  /** `filteredMembers`: all members for an empty search, otherwise the
      members the search hits, in store order. */
  function FilterMembers(members: seq<TeamMember>, term: string): (r: seq<TeamMember>)
    ensures term == "" ==> r == members
    ensures term != "" ==> forall x :: x in r <==> x in members && SearchHits(term, x)
    ensures term != "" ==> |r| == Count(members, Hits(term))
    ensures IsSubsequence(r, members)
  {
    SubsequenceReflexive(members);
    if term == "" then members else Filter(members, Hits(term))
  }

  /** The search as a filter. */
  function Hits(term: string): TeamMember -> bool
  {
    (m: TeamMember) => SearchHits(term, m)
  }

  /** The empty search is not special in effect: an empty term is contained
      in every field, so filtering with it would also keep every member. */
  lemma EmptySearchHitsAll(m: TeamMember)
    ensures SearchHits("", m)
  {
    ContainsEmpty(ToLower(m.displayName));
  }

  /** `handleAddMember`: appends the submitted member with a fresh id and
      the current time as creation and activity time, and closes the
      form. */
  function HandleAddMember(p: PageState, d: MemberDraft, id: string, now: int): (r: PageState)
    ensures |r.team.members| == |p.team.members| + 1
    ensures r.team.members[..|p.team.members|] == p.team.members
    ensures var m := r.team.members[|p.team.members|];
      MemberDraftOf(m) == d && m.id == id && m.createdAt == now && m.lastActive == now
    ensures !r.isAddingMember && r.editingMember == p.editingMember
  {
    p.(team := AddMember(p.team, MemberOfDraft(d, id, now, now)), isAddingMember := false)
  }

  /** `handleUpdateMember`: every member with the edited member's id becomes
      the edited member with its activity time restamped; the others stay;
      the form closes. */
  function HandleUpdateMember(p: PageState, edited: TeamMember, now: int): (r: PageState)
    ensures |r.team.members| == |p.team.members|
    ensures forall i :: 0 <= i < |p.team.members| && p.team.members[i].id == edited.id ==>
      r.team.members[i] == edited.(lastActive := now)
    ensures forall i :: 0 <= i < |p.team.members| && p.team.members[i].id != edited.id ==>
      r.team.members[i] == p.team.members[i]
    ensures !r.isAddingMember && r.editingMember.None?
  {
    PageState(UpdateMember(p.team, edited.id, FullMemberPatch(edited.(lastActive := now))), false, None)
  }

  /** `handleDeleteMember`: deletes only when the user confirms. */
  function HandleDeleteMember(p: PageState, id: string, confirmed: bool): (r: PageState)
    ensures !confirmed ==> r == p
    ensures confirmed ==> r == p.(team := DeleteMember(p.team, id))
    ensures confirmed ==> forall i :: 0 <= i < |r.team.members| ==> r.team.members[i].id != id
    ensures confirmed ==> |r.team.members| == Count(p.team.members, OtherThan(id))
    ensures IsSubsequence(r.team.members, p.team.members)
  {
    SubsequenceReflexive(p.team.members);
    if confirmed then p.(team := DeleteMember(p.team, id)) else p
  }
}

=== FILE: team_store.dfy ===
/** The team store: the team-member list plus loading and error flags, with
    whole-list replacement, append, merge-by-id and delete-by-id. */
module TeamStore {
  import opened Types
  import opened Seqs

  datatype TeamState = TeamState(members: seq<TeamMember>, isLoading: bool, error: Option<string>)

  const Initial := TeamState([], false, None)

  /** Some member in `members` carries `id`. */
  predicate HasMember(members: seq<TeamMember>, id: string)
  {
    exists i :: 0 <= i < |members| && members[i].id == id
  }

  /** `setMembers`: the list is replaced wholesale. */
  function SetMembers(s: TeamState, members: seq<TeamMember>): (r: TeamState)
    ensures r.members == members
    ensures r.isLoading == s.isLoading && r.error == s.error
  {
    s.(members := members)
  }

  /** `addMember`: appends at the end without looking for an id collision. */
  function AddMember(s: TeamState, m: TeamMember): (r: TeamState)
    ensures |r.members| == |s.members| + 1
    ensures r.members[..|s.members|] == s.members && r.members[|s.members|] == m
    ensures r.isLoading == s.isLoading && r.error == s.error
  {
    s.(members := s.members + [m])
  }

  /** `updateMember`: every member carrying `id` has the patch merged in; every
      other member is left as it was, in place. */
  function UpdateMember(s: TeamState, id: string, p: MemberPatch): (r: TeamState)
    ensures |r.members| == |s.members|
    ensures forall i :: 0 <= i < |s.members| && s.members[i].id == id ==> r.members[i] == p.ApplyTo(s.members[i])
    ensures forall i :: 0 <= i < |s.members| && s.members[i].id != id ==> r.members[i] == s.members[i]
    ensures r.isLoading == s.isLoading && r.error == s.error
  {
    s.(members := UpdateWhere(s.members, (m: TeamMember) => m.id == id, (m: TeamMember) => p.ApplyTo(m)))
  }

  /** `deleteMember`: removes every member carrying `id` and keeps the rest in
      their original order. */
  function DeleteMember(s: TeamState, id: string): (r: TeamState)
    ensures forall i :: 0 <= i < |r.members| ==> r.members[i].id != id
    ensures forall i :: 0 <= i < |s.members| && s.members[i].id != id ==> s.members[i] in r.members
    ensures IsSubsequence(r.members, s.members)
    ensures |r.members| == Count(s.members, OtherThan(id))
    ensures r.isLoading == s.isLoading && r.error == s.error
  {
    s.(members := Filter(s.members, OtherThan(id)))
  }

  /** Keeps the members whose id is not `id`. */
  function OtherThan(id: string): TeamMember -> bool
  {
    (m: TeamMember) => m.id != id
  }

  /** `setLoading`: only the loading flag changes. */
  function SetLoading(s: TeamState, isLoading: bool): (r: TeamState)
    ensures r.isLoading == isLoading
    ensures r.members == s.members && r.error == s.error
  {
    s.(isLoading := isLoading)
  }

  /** `setError`: only the error changes. */
  function SetError(s: TeamState, error: Option<string>): (r: TeamState)
    ensures r.error == error
    ensures r.members == s.members && r.isLoading == s.isLoading
  {
    s.(error := error)
  }

  /** Updating an id that no member carries changes nothing. */
  lemma UpdateAbsentIsNoop(s: TeamState, id: string, p: MemberPatch)
    requires !HasMember(s.members, id)
    ensures UpdateMember(s, id, p) == s
  {
    UpdateWhereNoMatch(s.members, (m: TeamMember) => m.id == id, (m: TeamMember) => p.ApplyTo(m));
  }

  /** Deleting an id that no member carries changes nothing. */
  lemma DeleteAbsentIsNoop(s: TeamState, id: string)
    requires !HasMember(s.members, id)
    ensures DeleteMember(s, id) == s
  {
    FilterKeepsAll(s.members, OtherThan(id));
  }

  /** Deleting the id of a member just added under a fresh id restores the
      previous state. */
  lemma DeleteUndoesAdd(s: TeamState, m: TeamMember)
    requires !HasMember(s.members, m.id)
    ensures DeleteMember(AddMember(s, m), m.id) == s
  {
    FilterSnoc(s.members, m, OtherThan(m.id));
    FilterKeepsAll(s.members, OtherThan(m.id));
  }

  /** Adding under an id that is already present keeps both members: the store
      does not deduplicate. */
  lemma AddKeepsDuplicates(s: TeamState, m: TeamMember)
    requires HasMember(s.members, m.id)
    ensures Count(AddMember(s, m).members, (x: TeamMember) => x.id == m.id) >= 2
  {
    var r := AddMember(s, m).members;
    var i :| 0 <= i < |s.members| && s.members[i].id == m.id;
    CountTwo(r, (x: TeamMember) => x.id == m.id, i, |s.members|);
  }
}

=== FILE: text.dfy ===
/** The string primitives the forms and filters rely on: JavaScript's
    whitespace class (shared by `String.prototype.trim` and the regular
    expression class `\s`), `trim`, an ASCII `toLowerCase`, and `includes`. */
module Text {

  /** JavaScript WhiteSpace and LineTerminator code points. */
  predicate IsSpace(c: char)
  {
    || c == ' ' || c == '\t' || c == '\n' || c == '\r'
    || c == '\U{000B}' || c == '\U{000C}' || c == '\U{00A0}' || c == '\U{1680}'
    || ('\U{2000}' <= c <= '\U{200A}')
    || c == '\U{2028}' || c == '\U{2029}' || c == '\U{202F}' || c == '\U{205F}'
    || c == '\U{3000}' || c == '\U{FEFF}'
  }

  /** Every character is whitespace (this includes the empty string). */
  predicate IsBlank(s: string)
  {
    forall i :: 0 <= i < |s| ==> IsSpace(s[i])
  }

  /** Number of leading whitespace characters. */
  function LeadingSpaces(s: string): (n: nat)
    ensures n <= |s|
    ensures forall i :: 0 <= i < n ==> IsSpace(s[i])
    ensures n < |s| ==> !IsSpace(s[n])
  {
    if |s| > 0 && IsSpace(s[0]) then
      var n := LeadingSpaces(s[1..]);
      assert forall i :: 1 <= i < |s| ==> s[i] == s[1..][i - 1];
      1 + n
    else 0
  }

  /** Number of trailing whitespace characters. */
  function TrailingSpaces(s: string): (n: nat)
    ensures n <= |s|
    ensures forall i :: |s| - n <= i < |s| ==> IsSpace(s[i])
    ensures n < |s| ==> !IsSpace(s[|s| - n - 1])
  {
    if |s| > 0 && IsSpace(s[|s| - 1]) then
      1 + TrailingSpaces(s[..|s| - 1])
    else 0
  }

  /** `String.prototype.trim`: the result is the slice of `s` between its
      leading and its trailing whitespace; it neither starts nor ends with
      whitespace, and it is empty exactly when `s` is blank. */
  function Trim(s: string): (r: string)
    ensures |r| <= |s|
    ensures r == "" <==> IsBlank(s)
    ensures |r| > 0 ==> !IsSpace(r[0]) && !IsSpace(r[|r| - 1])
    ensures var a := LeadingSpaces(s);
      && a + |r| <= |s|
      && r == s[a..a + |r|]
      && (forall i :: 0 <= i < a ==> IsSpace(s[i]))
      && (forall i :: a + |r| <= i < |s| ==> IsSpace(s[i]))
  {
    var a := LeadingSpaces(s);
    var b := TrailingSpaces(s[a..]);
    assert forall i :: a <= i < |s| ==> s[i] == s[a..][i - a];
    s[a..|s| - b]
  }

  /** Trimming a string that neither starts nor ends with whitespace leaves
      it unchanged. */
  lemma TrimUnpadded(s: string)
    requires |s| > 0 ==> !IsSpace(s[0]) && !IsSpace(s[|s| - 1])
    ensures Trim(s) == s
  {
  }

  /** Trimming twice is trimming once. */
  lemma TrimIdempotent(s: string)
    ensures Trim(Trim(s)) == Trim(s)
  {
    TrimUnpadded(Trim(s));
  }

  /** ASCII lower-casing of one character. */
  function LowerChar(c: char): char
  {
    if 'A' <= c <= 'Z' then (c as int + 32) as char else c
  }

  /** `String.prototype.toLowerCase`, restricted to the ASCII letters. */
  function ToLower(s: string): (r: string)
    ensures |r| == |s|
    ensures forall i :: 0 <= i < |s| ==> r[i] == LowerChar(s[i])
    ensures forall i :: 0 <= i < |r| ==> !('A' <= r[i] <= 'Z')
  {
    seq(|s|, i requires 0 <= i < |s| => LowerChar(s[i]))
  }

  /** Lower-casing is idempotent. */
  lemma ToLowerIdempotent(s: string)
    ensures ToLower(ToLower(s)) == ToLower(s)
  {
  }

  /** `t` occurs in `s` starting at position `i`. */
  predicate OccursAt(s: string, t: string, i: int)
  {
    0 <= i && i + |t| <= |s| && s[i..i + |t|] == t
  }

  /** `String.prototype.includes`: `t` occurs somewhere in `s`. */
  function Contains(s: string, t: string): (b: bool)
    ensures b <==> exists i :: OccursAt(s, t, i)
    decreases |s|
  {
    if |t| <= |s| && s[..|t|] == t then
      assert OccursAt(s, t, 0);
      true
    else if |s| == 0 then
      assert forall i :: !OccursAt(s, t, i);
      false
    else
      var b := Contains(s[1..], t);
      assert forall i :: OccursAt(s[1..], t, i) <==> OccursAt(s, t, i + 1) by {
        forall i ensures OccursAt(s[1..], t, i) <==> OccursAt(s, t, i + 1) {
          if 0 <= i && i + |t| <= |s| - 1 {
            assert s[1..][i..i + |t|] == s[i + 1..i + 1 + |t|];
          }
        }
      }
      assert !OccursAt(s, t, 0);
      assert forall i :: OccursAt(s, t, i) ==> i >= 1 && OccursAt(s[1..], t, i - 1);
      b
  }

  /** The empty string occurs in every string, so an empty search term
      matches everything. */
  lemma ContainsEmpty(s: string)
    ensures Contains(s, "")
  {
    assert OccursAt(s, "", 0);
  }

  /** Every string occurs in itself. */
  lemma ContainsSelf(s: string)
    ensures Contains(s, s)
  {
    assert OccursAt(s, s, 0);
  }

  /** The case-insensitive `includes` the search boxes use: both sides are
      lower-cased before the comparison. */
  predicate IncludesIgnoringCase(s: string, term: string)
  {
    Contains(ToLower(s), ToLower(term))
  }
}

=== FILE: types.dfy ===
/** The entity shapes of the dashboard (users, team members, tasks, channels,
    messages, calendar events) and their `Partial<T>` update records.
    Timestamps are integers (milliseconds); the source keeps them as ISO-8601
    strings, whose parsing and formatting are not modelled. */
module Types {

  /** A value that may be absent (`T | null`, `T | undefined`, or an optional
      property). */
  datatype Option<T> = None | Some(value: T) {
    /** The value, or `default` when absent (`x ?? default`). */
    function GetOr(default: T): T
    {
      match this
      case Some(v) => v
      case None => default
    }
  }

  datatype Role = Admin | Member

  datatype Status = Todo | InProgress | Review | Done

  datatype Priority = Low | Medium | High | Urgent

  datatype ChannelType = Public | Private

  /** The string literal the source uses for each status. */
  function StatusName(s: Status): string
  {
    match s
    case Todo => "todo"
    case InProgress => "inProgress"
    case Review => "review"
    case Done => "done"
  }

  /** The string literal the source uses for each priority. */
  function PriorityName(p: Priority): string
  {
    match p
    case Low => "low"
    case Medium => "medium"
    case High => "high"
    case Urgent => "urgent"
  }

  datatype User = User(
    id: string,
    displayName: string,
    email: string,
    photoURL: string,
    role: Role,
    createdAt: int,
    lastActive: int)

  /** A user with a department and a position. */
  datatype TeamMember = TeamMember(
    id: string,
    displayName: string,
    email: string,
    photoURL: string,
    role: Role,
    createdAt: int,
    lastActive: int,
    department: string,
    position: string)

  datatype Task = Task(
    id: string,
    title: string,
    description: string,
    status: Status,
    priority: Priority,
    dueDate: int,
    createdAt: int,
    updatedAt: int,
    assigneeId: string,
    createdById: string,
    tags: seq<string>)

  /** A chat channel; the source's `type` field is `channelType` here. */
  datatype Channel = Channel(
    id: string,
    name: string,
    description: string,
    channelType: ChannelType,
    createdAt: int,
    createdById: string,
    members: seq<string>)

  datatype Message = Message(
    id: string,
    content: string,
    createdAt: int,
    updatedAt: int,
    userId: string,
    channelId: string)

  datatype Event = Event(
    id: string,
    title: string,
    description: string,
    location: Option<string>,
    startTime: int,
    endTime: int,
    createdAt: int,
    updatedAt: int,
    createdById: string,
    attendees: seq<string>,
    isAllDay: Option<bool>,
    isRecurring: Option<bool>,
    recurrencePattern: Option<string>,
    color: Option<string>)

  /** `Partial<User>`: each field is either absent (kept) or supplied. The
      merge `{ ...user, ...patch }` is `ApplyTo`. */
  datatype UserPatch = UserPatch(
    id: Option<string>,
    displayName: Option<string>,
    email: Option<string>,
    photoURL: Option<string>,
    role: Option<Role>,
    createdAt: Option<int>,
    lastActive: Option<int>)
  {
    function ApplyTo(u: User): User
    {
      User(id.GetOr(u.id), displayName.GetOr(u.displayName), email.GetOr(u.email),
           photoURL.GetOr(u.photoURL), role.GetOr(u.role), createdAt.GetOr(u.createdAt),
           lastActive.GetOr(u.lastActive))
    }
  }

  /** The patch that supplies every field of `u` (spreading a whole record). */
  function FullUserPatch(u: User): UserPatch
  {
    UserPatch(Some(u.id), Some(u.displayName), Some(u.email), Some(u.photoURL),
              Some(u.role), Some(u.createdAt), Some(u.lastActive))
  }

  /** `Partial<TeamMember>`. */
  datatype MemberPatch = MemberPatch(
    id: Option<string>,
    displayName: Option<string>,
    email: Option<string>,
    photoURL: Option<string>,
    role: Option<Role>,
    createdAt: Option<int>,
    lastActive: Option<int>,
    department: Option<string>,
    position: Option<string>)
  {
    function ApplyTo(m: TeamMember): TeamMember
    {
      TeamMember(id.GetOr(m.id), displayName.GetOr(m.displayName), email.GetOr(m.email),
                 photoURL.GetOr(m.photoURL), role.GetOr(m.role), createdAt.GetOr(m.createdAt),
                 lastActive.GetOr(m.lastActive), department.GetOr(m.department),
                 position.GetOr(m.position))
    }
  }

  function FullMemberPatch(m: TeamMember): MemberPatch
  {
    MemberPatch(Some(m.id), Some(m.displayName), Some(m.email), Some(m.photoURL),
                Some(m.role), Some(m.createdAt), Some(m.lastActive), Some(m.department),
                Some(m.position))
  }

  /** `Partial<Task>`. */
  datatype TaskPatch = TaskPatch(
    id: Option<string>,
    title: Option<string>,
    description: Option<string>,
    status: Option<Status>,
    priority: Option<Priority>,
    dueDate: Option<int>,
    createdAt: Option<int>,
    updatedAt: Option<int>,
    assigneeId: Option<string>,
    createdById: Option<string>,
    tags: Option<seq<string>>)
  {
    function ApplyTo(t: Task): Task
    {
      Task(id.GetOr(t.id), title.GetOr(t.title), description.GetOr(t.description),
           status.GetOr(t.status), priority.GetOr(t.priority), dueDate.GetOr(t.dueDate),
           createdAt.GetOr(t.createdAt), updatedAt.GetOr(t.updatedAt),
           assigneeId.GetOr(t.assigneeId), createdById.GetOr(t.createdById), tags.GetOr(t.tags))
    }
  }

  const NoTaskChange := TaskPatch(None, None, None, None, None, None, None, None, None, None, None)

  function FullTaskPatch(t: Task): TaskPatch
  {
    TaskPatch(Some(t.id), Some(t.title), Some(t.description), Some(t.status), Some(t.priority),
              Some(t.dueDate), Some(t.createdAt), Some(t.updatedAt), Some(t.assigneeId),
              Some(t.createdById), Some(t.tags))
  }

  /** `Partial<Channel>`. */
  datatype ChannelPatch = ChannelPatch(
    id: Option<string>,
    name: Option<string>,
    description: Option<string>,
    channelType: Option<ChannelType>,
    createdAt: Option<int>,
    createdById: Option<string>,
    members: Option<seq<string>>)
  {
    function ApplyTo(c: Channel): Channel
    {
      Channel(id.GetOr(c.id), name.GetOr(c.name), description.GetOr(c.description),
              channelType.GetOr(c.channelType), createdAt.GetOr(c.createdAt),
              createdById.GetOr(c.createdById), members.GetOr(c.members))
    }
  }

  /** `Partial<Message>`. */
  datatype MessagePatch = MessagePatch(
    id: Option<string>,
    content: Option<string>,
    createdAt: Option<int>,
    updatedAt: Option<int>,
    userId: Option<string>,
    channelId: Option<string>)
  {
    function ApplyTo(m: Message): Message
    {
      Message(id.GetOr(m.id), content.GetOr(m.content), createdAt.GetOr(m.createdAt),
              updatedAt.GetOr(m.updatedAt), userId.GetOr(m.userId), channelId.GetOr(m.channelId))
    }
  }

  /** `Partial<Event>`. For the optional properties the outer `Option` says
      whether the key is present in the patch; a present key may carry
      `undefined` (the inner `None`), which the spread copies over. */
  datatype EventPatch = EventPatch(
    id: Option<string>,
    title: Option<string>,
    description: Option<string>,
    location: Option<Option<string>>,
    startTime: Option<int>,
    endTime: Option<int>,
    createdAt: Option<int>,
    updatedAt: Option<int>,
    createdById: Option<string>,
    attendees: Option<seq<string>>,
    isAllDay: Option<Option<bool>>,
    isRecurring: Option<Option<bool>>,
    recurrencePattern: Option<Option<string>>,
    color: Option<Option<string>>)
  {
    function ApplyTo(e: Event): Event
    {
      Event(id.GetOr(e.id), title.GetOr(e.title), description.GetOr(e.description),
            location.GetOr(e.location), startTime.GetOr(e.startTime), endTime.GetOr(e.endTime),
            createdAt.GetOr(e.createdAt), updatedAt.GetOr(e.updatedAt),
            createdById.GetOr(e.createdById), attendees.GetOr(e.attendees),
            isAllDay.GetOr(e.isAllDay), isRecurring.GetOr(e.isRecurring),
            recurrencePattern.GetOr(e.recurrencePattern), color.GetOr(e.color))
    }
  }

  /** `Omit<Task, 'id' | 'createdAt' | 'updatedAt'>`: what the task form
      submits when creating. */
  datatype TaskDraft = TaskDraft(
    title: string,
    description: string,
    status: Status,
    priority: Priority,
    dueDate: int,
    assigneeId: string,
    createdById: string,
    tags: seq<string>)

  /** `{ ...draft, id, createdAt, updatedAt }`. */
  function TaskOfDraft(d: TaskDraft, id: string, createdAt: int, updatedAt: int): Task
  {
    Task(id, d.title, d.description, d.status, d.priority, d.dueDate, createdAt, updatedAt,
         d.assigneeId, d.createdById, d.tags)
  }

  /** The draft fields of a task. */
  function DraftOf(t: Task): TaskDraft
  {
    TaskDraft(t.title, t.description, t.status, t.priority, t.dueDate, t.assigneeId,
              t.createdById, t.tags)
  }

  /** `Omit<TeamMember, 'id' | 'createdAt' | 'lastActive'>`: what the member
      form submits when adding. */
  datatype MemberDraft = MemberDraft(
    displayName: string,
    email: string,
    photoURL: string,
    role: Role,
    department: string,
    position: string)

  /** `{ ...draft, id, createdAt, lastActive }`. */
  function MemberOfDraft(d: MemberDraft, id: string, createdAt: int, lastActive: int): TeamMember
  {
    TeamMember(id, d.displayName, d.email, d.photoURL, d.role, createdAt, lastActive,
               d.department, d.position)
  }

  function MemberDraftOf(m: TeamMember): MemberDraft
  {
    MemberDraft(m.displayName, m.email, m.photoURL, m.role, m.department, m.position)
  }

  /** `Omit<Channel, 'id' | 'createdAt' | 'createdById'>`: what the
      new-channel dialog submits. */
  datatype ChannelDraft = ChannelDraft(
    name: string,
    description: string,
    channelType: ChannelType,
    members: seq<string>)

  /** Building a record from a draft and then taking its draft back gives
      the draft; the id and stamps are the ones supplied. */
  lemma DraftRoundTrips(d: TaskDraft, md: MemberDraft, id: string, c: int, u: int)
    ensures DraftOf(TaskOfDraft(d, id, c, u)) == d
    ensures var t := TaskOfDraft(d, id, c, u); t.id == id && t.createdAt == c && t.updatedAt == u
    ensures MemberDraftOf(MemberOfDraft(md, id, c, u)) == md
    ensures var m := MemberOfDraft(md, id, c, u); m.id == id && m.createdAt == c && m.lastActive == u
  {
  }
}
